=== FILE: README.md ===
# mypkmnbinder, modelled in Dafny

A model of the core of a single-page card-binder app. The binder is a
fixed sequence of 72 slots, shown as pages of nine. Each slot may hold
one card.

- **Adding a card.** Clicking an empty slot opens an add-card dialog.
  The card can come from a catalog search, from an image URL or from an
  uploaded image.
- **Viewing a card.** Clicking a filled slot flies the card out of the
  grid into a detail overlay. Closing the overlay, or removing the card
  from it, flies the card back. The grid slot stays hidden while its card
  is away.
- **Catalog images.** A catalog card's image URL comes from a prioritised
  chain of five sources.

The modules follow the source files:

| module | file | what it holds |
|---|---|---|
| `Types` | `types.dfy` | cards, slots, rectangles, fly-out direction, `Option` for `null`/`undefined` |
| `Text` | `text.dfy` | `${n}` rendering, `includes`, `trim` (full ECMAScript whitespace set), `toLowerCase` |
| `Binder` | `binder.dfy` | initial and loaded binder, place/remove a card, split into pages, page/offset arithmetic |
| `Detail` | `detail.dfy` | the detail-view state of the app and its three handlers, slot hiding |
| `Flyout` | `flyout.dfy` | the fly-out component |
| `Catalog` | `catalog.dfy` | the image-URL resolver |
| `AddCardModal` | `add_card_modal.dfy` | the dialog: search, pick, add by URL, confirm upload, close |
| `App` | `app.dfy` | everything wired together and driven by a sequence of UI and browser events |

The fly-out's effects and the browser's scheduling are explicit events:

- `Commit(props)` is a render followed by the effects whose inputs changed. What is drawn is read from the state after those effects (see Left out for where this differs from React).
- `Frame` is one animation frame, which runs the queued frame callbacks.
- `Timer` is the 500 ms completion timer firing.

Durations, CSS and layout are not modelled; only phases and poses are. The
outcomes of catalog requests, the current time and the uploaded file's data
URL are inputs to the operations that use them.

## Model

| member | source | states |
|---|---|---|
| `Text.NatToString` | src/app.tsx:27 | the decimal text of `n` is non-empty, all digits, and has no leading zero |
| `Text.DigitsValueOfNatToString` | src/app.tsx:27 | reading the decimal text back gives `n` (round trip) |
| `Text.NatToStringInjective` | src/app.tsx:27 | distinct numbers give distinct texts, so generated ids never collide |
| `Text.Contains` | src/lib/tcgdex.ts:16 | `includes` is true exactly when the needle occurs at some position |
| `Text.Trim` | src/components/add-card-modal.tsx:49 | `trim` gives the infix of the input left after dropping all-whitespace text on both sides, which neither starts nor ends with whitespace; the result is empty exactly when the input is all whitespace |
| `Text.TrimIdempotent` | src/components/add-card-modal.tsx:95-99 | trimming an already trimmed string changes nothing |
| `Text.ToLower` | src/components/add-card-modal.tsx:150 | lower-casing keeps the length and maps each character to its lower-case form |
| `Text.ToLowerIdempotent` | src/components/add-card-modal.tsx:150 | lower-casing twice is lower-casing once |
| `Binder.InitialSlotsShape` | src/app.tsx:14-29 | the fresh binder has 72 empty slots named "slot-0" to "slot-71", all names distinct |
| `Binder.LoadSlots` | src/app.tsx:17-30 | parsed stored slots are used as they are; with nothing stored, or with unparseable text, the fresh binder is used |
| `Binder.AddCard` | src/app.tsx:60-71 | the selected slot gets the card and keeps its id; every other slot is untouched; no selection or an out-of-range selection changes nothing |
| `Binder.RemoveCard` | src/app.tsx:73-82 | slot `i` is emptied and keeps its id; every other slot is untouched; an out-of-range index changes nothing |
| `Binder.RemoveIdempotent` | src/app.tsx:73-82 | removing twice is removing once |
| `Binder.AddThenRemove` | src/app.tsx:60-82 | adding at `i` and then removing at `i` leaves slot `i` empty under its own id and the rest as it was |
| `Binder.EditsKeepIds` | src/app.tsx:60-82 | after any sequence of additions and removals, the slot count and the id sequence are those the binder started with |
| `Binder.SplitPages` | src/app.tsx:121-125 | the pages concatenate back to the binder; there are ceil(n/9) of them; every page but the last is full; page `p`, offset `s` holds slot `9p+s` |
| `Binder.GlobalIndexRoundTrip` | src/app.tsx:193-194 | page/offset to index and back is the identity in both directions |
| `Binder.SeventyTwoSlotsMakeEightPages` | src/app.tsx:14-15 | the binder's 72 slots make exactly eight full pages |
| `Detail.FilledSlotClick` | src/app.tsx:84-89 | the outward flight starts from the clicked rectangle, and exactly the clicked slot is hidden |
| `Detail.FlyoutComplete` | src/app.tsx:91-101 | after an outward flight the overlay opens and the slot stays hidden; after an inward flight the detail view is cleared and no slot is hidden |
| `Detail.CloseDetail` | src/app.tsx:103-108 | the overlay closes and the inward flight starts towards the same slot and rectangle, which stay hidden |
| `Detail.OnlyDetailSlotHidden` | src/app.tsx:201 | a hidden slot is the detail slot, no other slot is hidden at the same time, and nothing is hidden while the detail view is at rest |
| `Detail.DetailCard` | src/app.tsx:248 | the overlay's card is the detail slot's card when the index addresses a filled slot, and nothing otherwise |
| `Detail.RemoveFromDetail` | src/app.tsx:110-114 | the detail slot is emptied but keeps its id, and no other slot changes; afterwards the overlay has no card |
| `Detail.HandlersKeepCoherent` | src/app.tsx:84-108 | the handlers never leave the overlay open while a flight is running |
| `Detail.ViewCycleReturnsToRest` | src/app.tsx:84-108 | click, completion, close and completion return the detail view to rest, with the slot hidden at every step in between |
| `Flyout.SaveSnapshot` | src/components/card-flyout.tsx:27-33 | card and rectangle are captured only while active and both present; otherwise the snapshot is kept |
| `Flyout.AnimationEffect` | src/components/card-flyout.tsx:35-59 | active with a snapshot: latch cleared, `Starting`, first frame and timer queued; inactive: `Idle` with latch and timer as they were; active without a snapshot: nothing changes; the snapshot and props are never touched |
| `Flyout.Commit` | src/components/card-flyout.tsx:27-60 | a render that activates with a snapshot restarts the sequence (latch cleared, `Starting`, frame and timer queued); a deactivation goes `Idle` and cancels the timer; an unchanged `active`/`direction` leaves phase, latch and timer alone; queued frame callbacks are never cancelled, only a restart queues a new one, and only a restart touches the latch |
| `Flyout.Mount` | src/components/card-flyout.tsx:22-60 | the first render without card and rectangle stays idle with no timer, no frame callback and the latch clear |
| `Flyout.Frame` | src/components/card-flyout.tsx:40-45 | the second of two nested frames switches to `Animating`; the first queues the second; the snapshot, the props and the rest of the state are untouched |
| `Flyout.Timer` | src/components/card-flyout.tsx:47-54 | the callback runs exactly when a timer is pending and the latch is clear; it then sets the latch and goes `Done`; the snapshot, the props and the frame queue are untouched |
| `Flyout.StepKeepsWf` | src/components/card-flyout.tsx:35-56 | every event keeps the invariant that a pending timer finds the latch clear |
| `Flyout.MountIsWf` | src/components/card-flyout.tsx:22-60 | the mounted component satisfies that invariant |
| `Flyout.AtMostOneCallbackPerActivation` | src/components/card-flyout.tsx:35-60 | between restarts the completion callback runs at most once, and never when no timer is pending |
| `Flyout.DeactivationCancels` | src/components/card-flyout.tsx:56-59 | after a render turns `active` off, no completion follows until the next restart |
| `Flyout.NoSnapshotNoCallback` | src/components/card-flyout.tsx:36 | without a snapshot, and with no render supplying card and rectangle, the component never starts or completes |
| `Flyout.ActivationCompletesOnce` | src/components/card-flyout.tsx:36-54 | after a restart, two frames reach `Animating` and the timer reports completion once; a repeated firing does nothing |
| `Flyout.InIsReverseOfOut` | src/components/card-flyout.tsx:69-83 | the inward flight's poses are the outward flight's poses swapped |
| `Flyout.View` | src/components/card-flyout.tsx:62-83 | nothing is drawn when idle, done, or without a card and rectangle; the snapshot wins over live props, and without a snapshot the live card and rectangle are drawn; the pose follows direction and phase |
| `Flyout.SnapshotSurvivesPropChanges` | src/components/card-flyout.tsx:62-63 | a render that no longer supplies card and rectangle does not change the card or rectangle in flight |
| `Catalog.Accept` | src/lib/tcgdex.ts:13-18 | a library method's answer is used exactly when it returned a non-empty string not containing "undefined" |
| `Catalog.ImageUrl` | src/lib/tcgdex.ts:5-46 | a resolved URL is never empty; a truthy image field gives "{image}/{quality}.{extension}" |
| `Catalog.PrecedenceOrder` | src/lib/tcgdex.ts:5-46 | the resolver returns the first source that yields a URL, in order: image field, `getImageUrl`, `getImageURL`, built URL, `images`; it returns nothing exactly when all five fail |
| `Catalog.MethodAnswerUsed` | src/lib/tcgdex.ts:12-25 | a usable `getImageUrl` answer is returned; `getImageURL` is used only when the first gives nothing; a method that throws counts as absent |
| `Catalog.BuiltUrlShape` | src/lib/tcgdex.ts:27-37 | with all three ids truthy, the built URL is "https://assets.tcgdex.net/en/{series}/{set}/{local}/{quality}.{extension}", preferring the set's series id |
| `Catalog.NothingBuiltWithoutIds` | src/lib/tcgdex.ts:29-34 | a missing set, local or series id builds nothing |
| `Catalog.ImagesFallback` | src/lib/tcgdex.ts:39-43 | as a last resort, high quality reads `images.large` and low quality reads `images.small`, if truthy |
| `AddCardModal.Resolve` | src/components/add-card-modal.tsx:61-79 | a listing resolves to its own summary or to exactly what its detail fetch settled with; a summary with an image, or one whose fetch did not settle with a value, is kept; it resolves to nothing exactly when the summary lacks an image and the fetch settled with nothing |
| `AddCardModal.ResolveAll` | src/components/add-card-modal.tsx:61-79 | every listing resolves (summary with an image, fetched details, or the summary after a failed or missing fetch), or the batch fails when any fetch settles to nothing |
| `AddCardModal.WithListImage` | src/components/add-card-modal.tsx:82-83 | the filter keeps exactly the results with a low-quality webp image, each as often as it was listed, in their original order |
| `AddCardModal.Filter` | src/components/add-card-modal.tsx:82-83 | `Array.filter`: the result is the ordered sub-sequence of the kept elements, each with its original multiplicity |
| `AddCardModal.ShownResultsFiltered` | src/components/add-card-modal.tsx:82-86 | the shown results are at most 20, every one has an image, and they appear in the resolved list in the same order |
| `AddCardModal.SearchRequest` | src/components/add-card-modal.tsx:49-55 | a blank query sends nothing; otherwise the untrimmed query is sent |
| `AddCardModal.Search` | src/components/add-card-modal.tsx:48-92 | a blank query changes nothing; a failed lookup or failed resolution keeps the old results; otherwise the shown results are exactly the first 20 (or all, if fewer) of the resolved results with an image, as a prefix of that filtered list, from at most the first 40 listed; searching always ends |
| `AddCardModal.SummaryWithImageKept` | src/components/add-card-modal.tsx:63-64 | a listed summary with an image is shown as it is, without fetching details |
| `AddCardModal.TimeIdRoundTrip` | src/components/add-card-modal.tsx:97 | a generated id keeps its prefix, and the timestamp can be read back from it |
| `AddCardModal.CardFromResult` | src/components/add-card-modal.tsx:132-152 | the picked card's image is the low png, else the low webp, else the placeholder; id and name fall back to "tcg-{now}" and "Unknown Card"; rarity is lower-cased; the set name is copied |
| `AddCardModal.ShownResultHasCatalogImage` | src/components/add-card-modal.tsx:132-144 | a result that passed the search filter never gets the placeholder image |
| `AddCardModal.SelectFromSearch` | src/components/add-card-modal.tsx:132-156 | picking a result hands over exactly the card built from that result, whose image is non-empty, and asks to close |
| `AddCardModal.UrlSubmit` | src/components/add-card-modal.tsx:94-105 | a blank input does nothing; otherwise "Custom Card" is handed over with the trimmed URL and id "custom-{now}", the input is cleared, and the dialog asks to close |
| `AddCardModal.ConfirmUpload` | src/components/add-card-modal.tsx:119-130 | without a preview nothing happens; otherwise "Uploaded Card" is handed over with the preview and id "upload-{now}", the preview is dropped, and the dialog asks to close |
| `AddCardModal.HandleClose` | src/components/add-card-modal.tsx:158-164 | closing clears URL, preview, query and results, keeps the tab, and asks to close |
| `AddCardModal.CloseResets` | src/components/add-card-modal.tsx:158-164 | closing twice is closing once, and a search on the cleared dialog sends nothing |
| `App.Settle` | src/app.tsx:247-253 | a re-render commits the app's current props to the fly-out, so the fly-out's effects run (restart, idle, timer cancel) exactly as `Flyout.Commit` states; no other part of the app changes |
| `App.Start` | src/app.tsx:17-53 | the binder is the one loaded from storage (`LoadSlots`: the parsed one, else 72 empty slots `slot-0`..`slot-71`) and the dialog is in its initial state; start-up is quiescent (settled, at rest, no timer and no frame callback queued) with the dialog closed and nothing selected; without parsed storage the binder is 72 empty slots |
| `App.ApplyHandled` | src/app.tsx:60-119 | a handed-over card goes into the selected slot; a close request closes the dialog and clears the selection; without one the dialog stays as open as it was, on the same slot |
| `App.React` | src/app.tsx:55-119 | only the animation timer can report a completion |
| `App.ReactGuards` | src/components/add-card-modal.tsx:166-305 | a dialog control does nothing unless the dialog is open and, for a control inside a tab panel, that tab is active; non-animation events leave the fly-out for the re-render; the binder changes only by a hand-over from the dialog or a removal in the overlay |
| `App.Handle` | src/app.tsx:55-119 | every event ends settled, and at most one completion runs per event |
| `App.ResultsKeepImages` | src/components/add-card-modal.tsx:82-86 | start-up shows no results, and no event makes the dialog show a result without a low-quality webp image |
| `App.PickShowsCatalogImage` | src/components/add-card-modal.tsx:132-156 | picking a shown result puts the card built from it into the selected slot, showing the result's catalog image rather than the placeholder; a card that is not shown, or a pick while another tab is active, changes nothing |
| `App.HandleKeepsIds` | src/app.tsx:60-82 | no event changes the slot ids or their order, and the fly-out invariant is kept |
| `App.AddByUrlScenario` | src/components/add-card-modal.tsx:94-105 | on a fresh binder, opening slot 0, switching to the URL tab, typing a URL and submitting puts the custom card in slot 0 only and closes the dialog |
| `App.AddByUrl` | src/components/add-card-modal.tsx:94-105 | on any binder, opening an empty slot, switching to the URL tab, typing a non-blank URL and submitting places the custom card in that slot as `AddCard` does and closes the dialog with no selection |
| `App.OpenOnEmptySlot` | src/app.tsx:55-58 | clicking an empty slot opens the dialog for that slot and leaves binder, dialog fields and detail view alone; on a settled app whose snapshot agrees with its props the fly-out is untouched too |
| `App.ChooseTabStep` | src/components/add-card-modal.tsx:186-200 | choosing a tab of the open dialog changes only the active tab: binder, selection, detail view and the other dialog fields stay, and on a settled app whose snapshot agrees with its props so does the fly-out |
| `App.TypeUrlStep` | src/components/add-card-modal.tsx:94-105 | typing in the URL field of the open dialog's URL tab changes only that field: binder, selection, detail view and the other dialog fields stay, and on a settled app whose snapshot agrees with its props so does the fly-out |
| `App.SubmitUrlStep` | src/components/add-card-modal.tsx:94-105 | submitting a non-blank URL puts the custom card in the selected slot, clears the field, closes the dialog and clears the selection |
| `App.ClickLaunches` | src/app.tsx:84-89 | a click on a filled slot launches the outward flight with that slot's card and rectangle in the snapshot |
| `App.FlightCompletes` | src/components/card-flyout.tsx:35-60 | a launched flight, after two frames and its timer, reports exactly one completion and ends idle with nothing scheduled |
| `App.CloseLaunches` | src/app.tsx:103-108 | closing the overlay launches the fly-back and leaves the binder alone |
| `App.RemoveLaunches` | src/app.tsx:110-114 | removing from the overlay empties the slot and still launches the fly-back from the snapshot |
| `App.OpenCycle` | src/app.tsx:84-101 | click, two frames and the timer report one completion; the overlay then shows the slot's card with the slot hidden, the snapshot holds card and rectangle, and the binder is unchanged |
| `App.DetailCycleEndToEnd` | src/app.tsx:84-108 | the full view cycle reports two completions and ends at rest with no slot hidden, the fly-out idle and the binder unchanged |
| `App.RemoveFromOverlay` | src/app.tsx:110-114 | a removal from the overlay empties the slot at once and launches the fly-back, which draws the removed card off-screen at the slot's rectangle |
| `App.RemoveFromOverlayFliesBack` | src/app.tsx:103-114 | the fly-back after a removal reports its completion; the cycle ends at rest with the slot empty |

## Left out

- Persistence is left out. Writing the slots to browser storage on every change is I/O. JSON parsing is reduced to its three outcomes (nothing stored, unparseable, parsed), and parsed data is taken as a well-formed slot sequence.
- The timed flip to page 1 at start-up is left out; it only drives the page-flip widget, which is a third-party component. The previous/next page buttons are commented out in the source (src/app.tsx:132-138 and 226-232), so `nextPage` and `prevPage` (src/app.tsx:126-127) are never called and are not modelled.
- Rendering is reduced. The fly-out is modelled as phases and poses; the flip book, CSS classes, transitions and the 500 ms duration are left out. Rectangles are kept as integers.
- Reading an uploaded file is left out; `FileReader` is I/O. Its result appears as the `PreviewLoaded` event carrying the data URL, which takes effect whenever the dialog is open, whichever tab is active.
- Catalog requests are not modelled. The name search and each detail fetch are given as their settled outcomes, so concurrency and the order in which fetches settle are not modelled either.
- A search is modelled as one atomic step, from request to results. Overlapping searches are therefore not modelled: the Search button is disabled while a search runs, but pressing Enter in the query field (src/components/add-card-modal.tsx:215) starts another one. Nor is a response that arrives after the dialog was closed (src/components/add-card-modal.tsx:86 against 158-164), which would fill the cleared results again.
- Text.ToLower: lower-cases only the ASCII letters A-Z. `toLowerCase` also maps non-ASCII letters. Catalog rarity names are ASCII.
- App.Handle: states only what holds for every event: settled, and at most one completion. Each event's effect is stated by the lemmas about that event and by the handlers' own contracts.
- Flyout.View: is evaluated on the fly-out state after a commit's effects have run. React instead draws from the refs as they stood at render time, before that commit's effects, and writing a ref does not re-render (src/components/card-flyout.tsx:62-63). So a commit that rewrites the snapshot without restarting the phase sequence is drawn one render late. For example, clicking slot B while A's card is still flying out keeps drawing A's card until the next re-render.
- Unmounting the fly-out is not modelled; the app never unmounts it.
- When a detail fetch settles with no value, the model abandons the whole search, as the code does. The filter then reads a field of `undefined`, which throws; the outer `catch` swallows this and the previous results stay.

=== FILE: add_card_modal.dfy ===
/**
 * The add-card dialog: searching the catalog by name, picking a search
 * result, adding a card by image URL, confirming an uploaded image, and
 * closing. The catalog lookup is an input: the settled outcome of the
 * name search together with the outcome of each per-result detail fetch.
 */
module AddCardModal {
  import opened Types
  import opened Text
  import opened Catalog

  /** At most this many catalog results are looked at. */
  const MaxListed: nat := 40
  /** At most this many results are shown. */
  const MaxShown: nat := 20
  /** The image of a picked result for which no image URL resolves. */
  const Placeholder: string := "https://placehold.co/245x342?text=No+Image"

  datatype Tab = SearchTab | UrlTab | UploadTab

  datatype ModalState = ModalState(
    activeTab: Tab,
    urlInput: string,
    previewUrl: Option<string>,
    searchQuery: string,
    searchResults: seq<CatalogCard>,
    isSearching: bool)

  const InitialModal: ModalState := ModalState(SearchTab, "", None, "", [], false)

  /**
   * What a handler did: the dialog's new state, the card it handed to the
   * app (if any), and whether it asked the app to close the dialog.
   */
  datatype Handled = Handled(modal: ModalState, added: Option<Card>, closes: bool)

  function Take<T>(s: seq<T>, n: nat): (r: seq<T>)
    ensures |r| == if |s| <= n then |s| else n
    ensures r == s[..|r|]
  {
    if |s| <= n then s else s[..n]
  }

  // ---------------------------------------------------------------------
  // Search
  // ---------------------------------------------------------------------

  /** The outcome of fetching full details for one listed result. */
  datatype DetailFetch =
    | NotFetched                          // the summary had an image, or nothing to fetch with
    | FetchFailed                         // the fetch threw; the summary is kept
    | Fetched(card: Option<CatalogCard>)  // the fetch settled with this value (`None`: nothing)

  datatype Listing = Listing(summary: CatalogCard, detail: DetailFetch)

  /** The settled name search: it failed, or it listed these results. */
  datatype Lookup = LookupFailed | Listed(listings: seq<Listing>)

  /**
   * The record a listed result is replaced by: the summary itself when it
   * already has a truthy image or its detail fetch did not produce a
   * value, the fetched record otherwise.
   */
  function Resolve(l: Listing): (r: Option<CatalogCard>)
    ensures r == Some(l.summary) || l.detail == Fetched(r)
    ensures Truthy(l.summary.image) || !l.detail.Fetched? ==> r == Some(l.summary)
    ensures r.None? <==> !Truthy(l.summary.image) && l.detail == Fetched(None)
  {
    if Truthy(l.summary.image) then Some(l.summary)
    else match l.detail
      case Fetched(c) => c
      case _ => Some(l.summary)
  }

  /**
   * All listed results resolved, or `None` if some resolved to nothing (the
   * image filter then fails on it and the whole search is abandoned).
   */
  function ResolveAll(ls: seq<Listing>): (r: Option<seq<CatalogCard>>)
    ensures r.Some? <==> forall i :: 0 <= i < |ls| ==> Resolve(ls[i]).Some?
    ensures r.Some? ==> |r.value| == |ls| && forall i :: 0 <= i < |ls| ==> Resolve(ls[i]) == Some(r.value[i])
  {
    if |ls| == 0 then Some([])
    else
      var rest := ResolveAll(ls[1..]);
      assert forall i :: 1 <= i < |ls| ==> ls[i] == ls[1..][i - 1];
      match Resolve(ls[0])
      case None => None
      case Some(c) => if rest.None? then None else Some([c] + rest.value)
  }

  /** A result can be shown: it has a low-quality webp image. */
  predicate HasListImage(c: CatalogCard) {
    ImageUrl(c, Low, Webp).Some?
  }

  /** `b` contains the elements of `a` in order, possibly with others in between. */
  predicate IsSubsequence<T(==)>(a: seq<T>, b: seq<T>)
    decreases |b|
  {
    if |a| == 0 then true
    else if |b| == 0 then false
    else if a[0] == b[0] then IsSubsequence(a[1..], b[1..])
    else IsSubsequence(a, b[1..])
  }

  /** The elements of `s` that satisfy `keep`, in their original order. */
  function Filter<T(==,!new)>(keep: T -> bool, s: seq<T>): (r: seq<T>)
    ensures forall k :: 0 <= k < |r| ==> keep(r[k])
    ensures forall i :: 0 <= i < |s| && keep(s[i]) ==> s[i] in r
    ensures forall x :: multiset(r)[x] == if keep(x) then multiset(s)[x] else 0
    ensures IsSubsequence(r, s)
    decreases |s|
  {
    if |s| == 0 then []
    else
      var rest := Filter(keep, s[1..]);
      var r := if keep(s[0]) then [s[0]] + rest else rest;
      FilterStep(keep, s, rest, r);
      r
  }

  /** One step of `Filter`: deciding the first element, given the filtered remainder. */
  lemma FilterStep<T(!new)>(keep: T -> bool, s: seq<T>, rest: seq<T>, r: seq<T>)
    requires |s| > 0
    requires forall k :: 0 <= k < |rest| ==> keep(rest[k])
    requires forall i :: 0 <= i < |s[1..]| && keep(s[1..][i]) ==> s[1..][i] in rest
    requires forall x :: multiset(rest)[x] == if keep(x) then multiset(s[1..])[x] else 0
    requires IsSubsequence(rest, s[1..])
    requires r == if keep(s[0]) then [s[0]] + rest else rest
    ensures forall k :: 0 <= k < |r| ==> keep(r[k])
    ensures forall i :: 0 <= i < |s| && keep(s[i]) ==> s[i] in r
    ensures forall x :: multiset(r)[x] == if keep(x) then multiset(s)[x] else 0
    ensures IsSubsequence(r, s)
  {
    assert forall i :: 1 <= i < |s| ==> s[i] == s[1..][i - 1];
    FilterStepCounts(keep, s, rest, r);
    if keep(s[0]) {
      assert r[1..] == rest;
    } else {
      assert |rest| > 0 ==> rest[0] != s[0];
    }
  }

  /** The multiplicity part of `FilterStep`. */
  lemma FilterStepCounts<T(!new)>(keep: T -> bool, s: seq<T>, rest: seq<T>, r: seq<T>)
    requires |s| > 0
    requires forall x :: multiset(rest)[x] == if keep(x) then multiset(s[1..])[x] else 0
    requires r == if keep(s[0]) then [s[0]] + rest else rest
    ensures forall x :: multiset(r)[x] == if keep(x) then multiset(s)[x] else 0
  {
    assert s == [s[0]] + s[1..];
    assert multiset(s) == multiset{s[0]} + multiset(s[1..]);
    if keep(s[0]) {
      assert multiset(r) == multiset{s[0]} + multiset(rest);
    }
  }

  /**
   * The results that can be shown, in their original order: every one
   * with a low-quality webp image, as often as it was listed, and no other.
   */
  function WithListImage(cards: seq<CatalogCard>): (r: seq<CatalogCard>)
    ensures forall k :: 0 <= k < |r| ==> HasListImage(r[k])
    ensures forall i :: 0 <= i < |cards| && HasListImage(cards[i]) ==> cards[i] in r
    ensures forall x :: multiset(r)[x] == if HasListImage(x) then multiset(cards)[x] else 0
    ensures IsSubsequence(r, cards)
  {
    Filter(HasListImage, cards)
  }

  lemma {:induction false} PrefixOfSubsequence<T>(a: seq<T>, b: seq<T>, n: nat)
    requires IsSubsequence(a, b)
    requires n <= |a|
    ensures IsSubsequence(a[..n], b)
    decreases |b|
  {
    if n > 0 && |b| > 0 {
      if a[0] == b[0] {
        assert a[..n][1..] == a[1..][..n - 1];
        PrefixOfSubsequence(a[1..], b[1..], n - 1);
      } else {
        PrefixOfSubsequence(a, b[1..], n);
      }
    }
  }

  /** The name filter sent to the catalog: the query as typed, unless it is blank. */
  function SearchRequest(st: ModalState): (q: Option<string>)
    ensures q.None? <==> IsBlank(st.searchQuery)
    ensures q.Some? ==> q.value == st.searchQuery
  {
    if Trim(st.searchQuery) == "" then None else Some(st.searchQuery)
  }

  /**
   * `results` are the first `MaxShown` of the resolved results that have
   * an image (all of them when there are fewer), in their original order.
   */
  predicate ShowsFirstWithImage(results: seq<CatalogCard>, resolved: seq<CatalogCard>) {
    var all := WithListImage(resolved);
    && |results| == (if |all| <= MaxShown then |all| else MaxShown)
    && results == all[..|results|]
  }

  /**
   * Run a search to completion. A blank query changes nothing. Otherwise the
   * first `MaxListed` listings are resolved, those with a low-quality webp
   * image are kept in order and the first `MaxShown` of them are shown; if
   * the lookup failed, or a listing resolved to nothing, the previous
   * results stay. Either way the search is no longer in progress.
   */
  function Search(st: ModalState, lookup: Lookup): (r: ModalState)
    ensures IsBlank(st.searchQuery) ==> r == st
    ensures !IsBlank(st.searchQuery) ==>
      !r.isSearching && r == st.(searchResults := r.searchResults, isSearching := false)
    ensures lookup.LookupFailed? ==> r.searchResults == st.searchResults
    ensures !IsBlank(st.searchQuery) && lookup.Listed? && ResolveAll(Take(lookup.listings, MaxListed)).None? ==>
      r.searchResults == st.searchResults
    ensures !IsBlank(st.searchQuery) && lookup.Listed? && ResolveAll(Take(lookup.listings, MaxListed)).Some? ==>
      && |ResolveAll(Take(lookup.listings, MaxListed)).value| <= MaxListed
      && ShowsFirstWithImage(r.searchResults, ResolveAll(Take(lookup.listings, MaxListed)).value)
  {
    if Trim(st.searchQuery) == "" then st
    else match lookup
      case LookupFailed => st.(isSearching := false)
      case Listed(listings) =>
        match ResolveAll(Take(listings, MaxListed))
        case None => st.(isSearching := false)
        case Some(resolved) =>
          st.(searchResults := Take(WithListImage(resolved), MaxShown), isSearching := false)
  }

  /**
   * What is shown after a search: at most `MaxShown` results, each with an
   * image, in the order the catalog listed them.
   */
  lemma ShownResultsFiltered(results: seq<CatalogCard>, resolved: seq<CatalogCard>)
    requires ShowsFirstWithImage(results, resolved)
    ensures |results| <= MaxShown
    ensures forall k :: 0 <= k < |results| ==> HasListImage(results[k])
    ensures IsSubsequence(results, resolved)
  {
    var all := WithListImage(resolved);
    PrefixOfSubsequence(all, resolved, |results|);
  }

  /** A listed result whose summary has a truthy image is shown as it is, without its details. */
  lemma SummaryWithImageKept(l: Listing)
    requires Truthy(l.summary.image)
    ensures Resolve(l) == Some(l.summary)
    ensures HasListImage(l.summary)
  {
  }

  // ---------------------------------------------------------------------
  // Building cards
  // ---------------------------------------------------------------------

  /** "{prefix}{now}", the id given to a card that has none of its own. */
  function TimeId(prefix: string, now: nat): string {
    prefix + NatToString(now)
  }

  /** A generated id keeps its prefix, and the time can be read back from it. */
  lemma TimeIdRoundTrip(prefix: string, now: nat)
    ensures |TimeId(prefix, now)| > |prefix|
    ensures TimeId(prefix, now)[..|prefix|] == prefix
    ensures AllDigits(TimeId(prefix, now)[|prefix|..])
    ensures DigitsValue(TimeId(prefix, now)[|prefix|..]) == now
  {
    assert TimeId(prefix, now)[|prefix|..] == NatToString(now);
    DigitsValueOfNatToString(now);
  }

  /**
   * The card built from a picked search result: the catalog id (or a time
   * id "tcg-{now}"), the catalog name (or "Unknown Card"), the low-quality
   * png image, falling back to the webp image and then to the placeholder,
   * the lowercased catalog rarity and the set name.
   */
  function CardFromResult(c: CatalogCard, now: nat): (card: Card)
    ensures card.imageUrl != ""
    ensures ImageUrl(c, Low, Png).Some? ==> card.imageUrl == ImageUrl(c, Low, Png).value
    ensures ImageUrl(c, Low, Png).None? && ImageUrl(c, Low, Webp).Some? ==>
      card.imageUrl == ImageUrl(c, Low, Webp).value
    ensures ImageUrl(c, Low, Png).None? && ImageUrl(c, Low, Webp).None? ==> card.imageUrl == Placeholder
    ensures Truthy(c.id) ==> card.id == c.id.value
    ensures !Truthy(c.id) ==> card.id == "tcg-" + NatToString(now)
    ensures Truthy(c.name) ==> card.name == c.name.value
    ensures !Truthy(c.name) ==> card.name == "Unknown Card"
    ensures c.rarity.None? ==> card.rarity.None?
    ensures c.rarity.Some? ==>
      && card.rarity.Some? && |card.rarity.value| == |c.rarity.value|
      && forall k :: 0 <= k < |c.rarity.value| ==> card.rarity.value[k] == LowerChar(c.rarity.value[k])
    ensures c.cardSet.None? ==> card.setName.None?
    ensures c.cardSet.Some? ==> card.setName == c.cardSet.value.name
  {
    var png := ImageUrl(c, Low, Png);
    var webp := ImageUrl(c, Low, Webp);
    var imageUrl := if png.Some? then png.value else if webp.Some? then webp.value else Placeholder;
    Card(
      if Truthy(c.id) then c.id.value else TimeId("tcg-", now),
      if Truthy(c.name) then c.name.value else "Unknown Card",
      imageUrl,
      match c.rarity case None => None case Some(r) => Some(ToLower(r)),
      match c.cardSet case None => None case Some(s) => s.name)
  }

  /** A shown result never falls back to the placeholder image. */
  lemma ShownResultHasCatalogImage(c: CatalogCard, now: nat)
    requires HasListImage(c)
    ensures CardFromResult(c, now).imageUrl ==
      if ImageUrl(c, Low, Png).Some? then ImageUrl(c, Low, Png).value else ImageUrl(c, Low, Webp).value
  {
  }

  /** Picking a result hands its card to the app and asks to close; the dialog's own fields stay. */
  function SelectFromSearch(st: ModalState, c: CatalogCard, now: nat): (h: Handled)
    ensures h.modal == st && h.closes
    ensures h.added == Some(CardFromResult(c, now))
    ensures h.added.Some? && h.added.value.imageUrl != ""
  {
    Handled(st, Some(CardFromResult(c, now)), true)
  }

  /**
   * Add by URL. A blank input does nothing. Otherwise the card "Custom Card"
   * with the trimmed input as image and a "custom-{now}" id is handed over,
   * the input is cleared and the dialog asks to close.
   */
  function UrlSubmit(st: ModalState, now: nat): (h: Handled)
    ensures IsBlank(st.urlInput) ==> h == Handled(st, None, false)
    ensures !IsBlank(st.urlInput) ==> h.closes && h.modal == st.(urlInput := "") && h.added.Some?
    ensures h.added.Some? ==>
      && h.added.value.id == "custom-" + NatToString(now)
      && h.added.value.name == "Custom Card"
      && h.added.value.imageUrl == Trim(st.urlInput)
      && h.added.value.imageUrl != ""
      && !IsWhitespace(h.added.value.imageUrl[0])
      && h.added.value.rarity.None? && h.added.value.setName.None?
  {
    var url := Trim(st.urlInput);
    if url != "" then
      Handled(st.(urlInput := ""), Some(Card(TimeId("custom-", now), "Custom Card", url, None, None)), true)
    else Handled(st, None, false)
  }

  /**
   * Confirm an upload. Without a (non-empty) preview nothing happens.
   * Otherwise the card "Uploaded Card" showing the preview, with an
   * "upload-{now}" id, is handed over, the preview is dropped and the
   * dialog asks to close.
   */
  function ConfirmUpload(st: ModalState, now: nat): (h: Handled)
    ensures !Truthy(st.previewUrl) ==> h == Handled(st, None, false)
    ensures Truthy(st.previewUrl) ==>
      && h.closes && h.modal == st.(previewUrl := None)
      && h.added == Some(Card("upload-" + NatToString(now), "Uploaded Card", st.previewUrl.value, None, None))
  {
    if Truthy(st.previewUrl) then
      Handled(st.(previewUrl := None),
        Some(Card(TimeId("upload-", now), "Uploaded Card", st.previewUrl.value, None, None)), true)
    else Handled(st, None, false)
  }

  /**
   * Close the dialog: the URL input, preview, query and results go back to
   * their empty values; the chosen tab and the searching flag stay.
   */
  function HandleClose(st: ModalState): (h: Handled)
    ensures h.closes && h.added.None?
    ensures h.modal.urlInput == "" && h.modal.previewUrl.None?
    ensures h.modal.searchQuery == "" && h.modal.searchResults == []
    ensures h.modal.activeTab == st.activeTab && h.modal.isSearching == st.isSearching
  {
    Handled(st.(urlInput := "", previewUrl := None, searchQuery := "", searchResults := []), None, true)
  }

  /** Closing twice is closing once, and a search on the closed dialog is a no-op. */
  lemma CloseResets(st: ModalState, lookup: Lookup)
    ensures HandleClose(HandleClose(st).modal) == HandleClose(st)
    ensures Search(HandleClose(st).modal, lookup) == HandleClose(st).modal
    ensures SearchRequest(HandleClose(st).modal).None?
  {
  }
}

=== FILE: app.dfy ===
/**
 * The application as a whole: the binder, the add-card dialog and the
 * slot it is armed for, the detail-view controller and the fly-out
 * component, driven by user and browser events. After every event the
 * app re-renders, which commits the fly-out's new props.
 */
module App {
  import opened Types
  import opened Binder
  import opened Detail
  import Flyout
  import Catalog
  import Dialog = AddCardModal

  datatype AppState = AppState(
    slots: seq<Slot>,
    modalOpen: bool,
    selectedSlotIndex: Option<int>,
    detail: DetailState,
    flyout: Flyout.Flyout,
    dialog: Dialog.ModalState)

  /** The props the app renders the fly-out with. */
  function FlyoutProps(slots: seq<Slot>, detail: DetailState): Flyout.Props {
    Flyout.Props(DetailCard(slots, detail), detail.flyoutRect, detail.flyoutDirection, detail.flyoutActive)
  }

  /** The fly-out has seen the app's current props. */
  predicate Settled(app: AppState) {
    app.flyout.props == FlyoutProps(app.slots, app.detail)
  }

  /** Re-render: commit the current props to the fly-out. */
  function Settle(app: AppState): (r: AppState)
    ensures Settled(r)
    ensures r == app.(flyout := r.flyout)
    ensures r.flyout == Flyout.Commit(app.flyout, FlyoutProps(app.slots, app.detail))
  {
    app.(flyout := Flyout.Commit(app.flyout, FlyoutProps(app.slots, app.detail)))
  }

  /** Start-up: the loaded binder, nothing selected, nothing open, the fly-out mounted. */
  function Start(stored: Stored): (app: AppState)
    ensures Settled(app) && AtRest(app.detail) && !app.modalOpen && app.selectedSlotIndex.None?
    ensures Flyout.Wf(app.flyout) && Quiescent(app)
    ensures app.slots == LoadSlots(stored) && app.dialog == Dialog.InitialModal
    ensures !stored.Parsed? ==> |app.slots| == TotalSlots && AllEmpty(app.slots)
  {
    var slots := LoadSlots(stored);
    AppState(slots, false, None, InitialDetail, Flyout.Mount(FlyoutProps(slots, InitialDetail)), Dialog.InitialModal)
  }

  datatype UiEvent =
    | ClickEmptySlot(index: int)
    | ClickFilledSlot(index: int, rect: Rect)
    | CloseDetailView
    | RemoveInDetailView
    | AnimationFrame
    | AnimationTimer
    | TypeQuery(query: string)
    | TypeUrl(url: string)
    | ChooseTab(tab: Dialog.Tab)
    | PreviewLoaded(dataUrl: string)
    | DiscardPreview
    | DialogSearch(lookup: Dialog.Lookup)
    | DialogPick(result: Catalog.CatalogCard, now: nat)
    | DialogSubmitUrl(now: nat)
    | DialogConfirmUpload(now: nat)
    | DialogClose

  predicate HoldsCard(slots: seq<Slot>, i: int) {
    InRange(slots, i) && slots[i].card.Some?
  }

  /** The detail overlay is on screen (it renders only when open and showing a card). */
  predicate DetailShown(app: AppState) {
    app.detail.detailModalOpen && DetailCard(app.slots, app.detail).Some?
  }

  /**
   * Apply what a dialog handler did: a handed-over card goes into the slot
   * the dialog was opened for, then a close request closes the dialog and
   * drops the selection.
   */
  function ApplyHandled(app: AppState, h: Dialog.Handled): (r: AppState)
    ensures |r.slots| == |app.slots|
    ensures h.added.Some? ==> r.slots == AddCard(app.slots, app.selectedSlotIndex, h.added.value)
    ensures h.added.None? ==> r.slots == app.slots
    ensures h.closes ==> !r.modalOpen && r.selectedSlotIndex.None?
    ensures !h.closes ==> r.modalOpen == app.modalOpen && r.selectedSlotIndex == app.selectedSlotIndex
    ensures r.detail == app.detail && r.flyout == app.flyout && r.dialog == h.modal
  {
    var slots := if h.added.Some? then AddCard(app.slots, app.selectedSlotIndex, h.added.value) else app.slots;
    var a := app.(slots := slots, dialog := h.modal);
    if h.closes then a.(modalOpen := false, selectedSlotIndex := None) else a
  }

  /** An event that comes from a control of the add-card dialog. */
  predicate FromDialog(e: UiEvent) {
    || e.TypeQuery? || e.TypeUrl? || e.ChooseTab? || e.PreviewLoaded? || e.DiscardPreview?
    || e.DialogSearch? || e.DialogPick? || e.DialogSubmitUrl? || e.DialogConfirmUpload? || e.DialogClose?
  }

  /** The dialog tab whose panel holds the control an event comes from, if it sits on one. */
  function ControlTab(e: UiEvent): Option<Dialog.Tab> {
    match e
    case TypeQuery(_) => Some(Dialog.SearchTab)
    case DialogSearch(_) => Some(Dialog.SearchTab)
    case DialogPick(_, _) => Some(Dialog.SearchTab)
    case TypeUrl(_) => Some(Dialog.UrlTab)
    case DialogSubmitUrl(_) => Some(Dialog.UrlTab)
    case DiscardPreview => Some(Dialog.UploadTab)
    case DialogConfirmUpload(_) => Some(Dialog.UploadTab)
    case _ => None
  }

  /**
   * The control is on screen: the dialog is open and, for a control inside
   * a tab panel, that tab is active. A loaded file preview arrives from the
   * file reader, not from a control on a panel.
   */
  predicate Available(app: AppState, e: UiEvent) {
    app.modalOpen && (ControlTab(e).None? || app.dialog.activeTab == ControlTab(e).value)
  }

  /** The dialog is open on tab `t`, so the controls of that tab's panel are on screen. */
  predicate OnTab(app: AppState, t: Dialog.Tab) {
    app.modalOpen && app.dialog.activeTab == t
  }

  /** The state change of one event, before re-rendering, and whether a fly-out completion ran. */
  function React(app: AppState, e: UiEvent): (r: (AppState, bool))
    ensures r.1 ==> e.AnimationTimer?
  {
    match e
    case ClickEmptySlot(i) =>
      (if InRange(app.slots, i) && app.slots[i].card.None? then app.(selectedSlotIndex := Some(i), modalOpen := true) else app, false)
    case ClickFilledSlot(i, rect) =>
      (if HoldsCard(app.slots, i) then app.(detail := FilledSlotClick(app.detail, i, rect)) else app, false)
    case CloseDetailView =>
      (if DetailShown(app) then app.(detail := CloseDetail(app.detail)) else app, false)
    case RemoveInDetailView =>
      (if DetailShown(app) then
         app.(slots := RemoveFromDetail(app.slots, app.detail), detail := CloseDetail(app.detail))
       else app, false)
    case AnimationFrame => (app.(flyout := Flyout.Frame(app.flyout)), false)
    case AnimationTimer =>
      var t := Flyout.Timer(app.flyout);
      var a := app.(flyout := t.state);
      (if t.callback then a.(detail := FlyoutComplete(a.detail)) else a, t.callback)
    case TypeQuery(q) =>
      (if OnTab(app, Dialog.SearchTab) then app.(dialog := app.dialog.(searchQuery := q)) else app, false)
    case TypeUrl(u) =>
      (if OnTab(app, Dialog.UrlTab) then app.(dialog := app.dialog.(urlInput := u)) else app, false)
    case ChooseTab(t) =>
      (if app.modalOpen then app.(dialog := app.dialog.(activeTab := t)) else app, false)
    case PreviewLoaded(u) =>
      (if app.modalOpen then app.(dialog := app.dialog.(previewUrl := Some(u))) else app, false)
    case DiscardPreview =>
      (if OnTab(app, Dialog.UploadTab) then app.(dialog := app.dialog.(previewUrl := None)) else app, false)
    case DialogSearch(lookup) =>
      (if OnTab(app, Dialog.SearchTab) then app.(dialog := Dialog.Search(app.dialog, lookup)) else app, false)
    case DialogPick(c, now) =>
      (if OnTab(app, Dialog.SearchTab) && c in app.dialog.searchResults then
         ApplyHandled(app, Dialog.SelectFromSearch(app.dialog, c, now))
       else app, false)
    case DialogSubmitUrl(now) =>
      (if OnTab(app, Dialog.UrlTab) then ApplyHandled(app, Dialog.UrlSubmit(app.dialog, now)) else app, false)
    case DialogConfirmUpload(now) =>
      (if OnTab(app, Dialog.UploadTab) then ApplyHandled(app, Dialog.ConfirmUpload(app.dialog, now)) else app, false)
    case DialogClose =>
      (if app.modalOpen then ApplyHandled(app, Dialog.HandleClose(app.dialog)) else app, false)
  }

  /**
   * A dialog control that is not on screen does nothing; only animation
   * events touch the fly-out before the re-render; and the binder changes
   * only by a card handed over from the dialog or a removal in the overlay.
   */
  lemma ReactGuards(app: AppState, e: UiEvent)
    ensures FromDialog(e) && !Available(app, e) ==> React(app, e).0 == app
    ensures !e.AnimationFrame? && !e.AnimationTimer? ==> React(app, e).0.flyout == app.flyout
    ensures React(app, e).0.slots != app.slots ==>
      e.DialogPick? || e.DialogSubmitUrl? || e.DialogConfirmUpload? || e.RemoveInDetailView?
  {
    match e
    case DialogPick(c, now) =>
      if OnTab(app, Dialog.SearchTab) && c in app.dialog.searchResults {
        assert React(app, e).0 == ApplyHandled(app, Dialog.SelectFromSearch(app.dialog, c, now));
      }
    case DialogSubmitUrl(now) =>
      if OnTab(app, Dialog.UrlTab) {
        assert React(app, e).0 == ApplyHandled(app, Dialog.UrlSubmit(app.dialog, now));
      }
    case DialogConfirmUpload(now) =>
      if OnTab(app, Dialog.UploadTab) {
        assert React(app, e).0 == ApplyHandled(app, Dialog.ConfirmUpload(app.dialog, now));
      }
    case DialogClose =>
      if app.modalOpen {
        assert React(app, e).0 == ApplyHandled(app, Dialog.HandleClose(app.dialog));
      }
    case _ =>
  }

  datatype Outcome = Outcome(app: AppState, completions: nat)

  /** Handle one event and re-render. */
  function Handle(app: AppState, e: UiEvent): (r: Outcome)
    ensures Settled(r.app)
    ensures r.completions <= 1
  {
    var (a, done) := React(app, e);
    Outcome(Settle(a), if done then 1 else 0)
  }

  /** Handle a sequence of events, counting fly-out completions. */
  function HandleAll(app: AppState, events: seq<UiEvent>): Outcome
    decreases |events|
  {
    if |events| == 0 then Outcome(app, 0)
    else
      var r := Handle(app, events[0]);
      var rest := HandleAll(r.app, events[1..]);
      Outcome(rest.app, rest.completions + r.completions)
  }

  /** The binder keeps its slot identifiers, in order, whatever happens. */
  lemma HandleKeepsIds(app: AppState, e: UiEvent)
    ensures Ids(Handle(app, e).app.slots) == Ids(app.slots)
    ensures Flyout.Wf(app.flyout) ==> Flyout.Wf(Handle(app, e).app.flyout)
  {
    var (a, _) := React(app, e);
    assert Ids(a.slots) == Ids(app.slots);
  }

  /** Every result the dialog shows has a low-quality webp image. */
  predicate ResultsHaveImages(app: AppState) {
    forall k :: 0 <= k < |app.dialog.searchResults| ==> Dialog.HasListImage(app.dialog.searchResults[k])
  }

  /** Start-up shows no results, and no event ever shows a result without an image. */
  lemma ResultsKeepImages(app: AppState, e: UiEvent)
    ensures ResultsHaveImages(Start(NothingStored))
    ensures ResultsHaveImages(app) ==> ResultsHaveImages(Handle(app, e).app)
  {
    if ResultsHaveImages(app) && e.DialogSearch? && Available(app, e) {
      var lookup := e.lookup;
      var r := Dialog.Search(app.dialog, lookup);
      assert Handle(app, e).app.dialog == r;
      if !Text.IsBlank(app.dialog.searchQuery) && lookup.Listed? {
        var resolved := Dialog.ResolveAll(Dialog.Take(lookup.listings, Dialog.MaxListed));
        if resolved.Some? {
          Dialog.ShownResultsFiltered(r.searchResults, resolved.value);
        }
      }
    }
  }

  /**
   * Picking a shown result puts its card into the selected slot, and the
   * card shows the result's catalog image, never the placeholder's
   * fallback. A card that is not among the shown results, or a pick while
   * another tab is showing, changes nothing.
   */
  lemma PickShowsCatalogImage(app: AppState, c: Catalog.CatalogCard, now: nat)
    requires app.modalOpen && ResultsHaveImages(app)
    ensures var r := Handle(app, DialogPick(c, now)).app;
      && (c in app.dialog.searchResults && app.dialog.activeTab == Dialog.SearchTab ==>
            && r.slots == AddCard(app.slots, app.selectedSlotIndex, Dialog.CardFromResult(c, now))
            && Dialog.CardFromResult(c, now).imageUrl ==
                 if Catalog.ImageUrl(c, Catalog.Low, Catalog.Png).Some? then Catalog.ImageUrl(c, Catalog.Low, Catalog.Png).value
                 else Catalog.ImageUrl(c, Catalog.Low, Catalog.Webp).value)
      && (c !in app.dialog.searchResults || app.dialog.activeTab != Dialog.SearchTab ==>
            r.slots == app.slots && r.modalOpen)
  {
    if c in app.dialog.searchResults {
      var k :| 0 <= k < |app.dialog.searchResults| && app.dialog.searchResults[k] == c;
      Dialog.ShownResultHasCatalogImage(c, now);
    }
  }

  /**
   * Start with an empty binder, open the dialog on slot 0, switch to the URL
   * tab, type an image URL and submit it: slot 0 now holds the custom card showing that URL, every
   * other slot is still empty, and the dialog is closed with no selection.
   */
  lemma AddByUrlScenario(url: string, now: nat)
    requires !Text.IsBlank(url)
    ensures var r := HandleAll(Start(NothingStored), [ClickEmptySlot(0), ChooseTab(Dialog.UrlTab), TypeUrl(url), DialogSubmitUrl(now)]).app;
      && |r.slots| == TotalSlots
      && r.slots[0] == Slot("slot-0", Some(Card("custom-" + Text.NatToString(now), "Custom Card", Text.Trim(url), None, None)))
      && (forall j :: 1 <= j < TotalSlots ==> r.slots[j].card.None?)
      && !r.modalOpen && r.selectedSlotIndex.None?
      && r.dialog.urlInput == ""
  {
    var a0 := Start(NothingStored);
    AddByUrl(a0, 0, url, now);
    assert a0.slots[0].id == "slot-0";
  }

  /**
   * On any binder: open the dialog on an empty slot, switch to the URL tab,
   * type a non-blank URL and submit it. The custom card lands in that slot, nothing else in
   * the binder changes, and the dialog is closed with no selection.
   */
  lemma AddByUrl(app: AppState, i: int, url: string, now: nat)
    requires InRange(app.slots, i) && app.slots[i].card.None?
    requires !Text.IsBlank(url)
    ensures var r := HandleAll(app, [ClickEmptySlot(i), ChooseTab(Dialog.UrlTab), TypeUrl(url), DialogSubmitUrl(now)]).app;
      && r.slots == AddCard(app.slots, Some(i),
           Card("custom-" + Text.NatToString(now), "Custom Card", Text.Trim(url), None, None))
      && !r.modalOpen && r.selectedSlotIndex.None?
      && r.dialog.urlInput == ""
  {
    OpenOnEmptySlot(app, i);
    var a1 := Handle(app, ClickEmptySlot(i)).app;
    ChooseTabStep(a1, Dialog.UrlTab);
    var a2 := Handle(a1, ChooseTab(Dialog.UrlTab)).app;
    TypeUrlStep(a2, url);
    var a3 := Handle(a2, TypeUrl(url)).app;
    SubmitUrlStep(a3, now);
    HandleOne(a3, DialogSubmitUrl(now));
    HandleAllCons(a2, TypeUrl(url), [DialogSubmitUrl(now)]);
    HandleAllCons(a1, ChooseTab(Dialog.UrlTab), [TypeUrl(url), DialogSubmitUrl(now)]);
    HandleAllCons(app, ClickEmptySlot(i), [ChooseTab(Dialog.UrlTab), TypeUrl(url), DialogSubmitUrl(now)]);
  }

  /** Clicking an empty slot opens the dialog for that slot and changes nothing else. */
  lemma OpenOnEmptySlot(app: AppState, i: int)
    requires InRange(app.slots, i) && app.slots[i].card.None?
    ensures var r := Handle(app, ClickEmptySlot(i)).app;
      && r.modalOpen && r.selectedSlotIndex == Some(i)
      && r.slots == app.slots && r.dialog == app.dialog && r.detail == app.detail
      && (Settled(app) && SnapshotAgrees(app) ==> r.flyout == app.flyout)
  {
  }

  /** Choosing a tab of the open dialog only changes the active tab. */
  lemma ChooseTabStep(app: AppState, t: Dialog.Tab)
    requires app.modalOpen
    ensures var r := Handle(app, ChooseTab(t)).app;
      && r.modalOpen && r.selectedSlotIndex == app.selectedSlotIndex
      && r.slots == app.slots && r.dialog == app.dialog.(activeTab := t) && r.detail == app.detail
      && (Settled(app) && SnapshotAgrees(app) ==> r.flyout == app.flyout)
  {
  }

  /** Typing into the URL field of the dialog's URL tab only changes that field. */
  lemma TypeUrlStep(app: AppState, url: string)
    requires app.modalOpen && app.dialog.activeTab == Dialog.UrlTab
    ensures var r := Handle(app, TypeUrl(url)).app;
      && r.modalOpen && r.selectedSlotIndex == app.selectedSlotIndex
      && r.slots == app.slots && r.dialog == app.dialog.(urlInput := url) && r.detail == app.detail
      && (Settled(app) && SnapshotAgrees(app) ==> r.flyout == app.flyout)
  {
  }

  /**
   * Submitting a non-blank URL in the open dialog places the custom card
   * in the selected slot, clears the field, and closes the dialog.
   */
  lemma SubmitUrlStep(app: AppState, now: nat)
    requires app.modalOpen && app.dialog.activeTab == Dialog.UrlTab && !Text.IsBlank(app.dialog.urlInput)
    ensures var r := Handle(app, DialogSubmitUrl(now)).app;
      && r.slots == AddCard(app.slots, app.selectedSlotIndex,
           Card("custom-" + Text.NatToString(now), "Custom Card", Text.Trim(app.dialog.urlInput), None, None))
      && !r.modalOpen && r.selectedSlotIndex.None?
      && r.dialog.urlInput == ""
  {
    SubmitHandled(app, now);
    SubmittedCard(app, now);
  }

  /** The URL tab's submit button applies what the dialog's handler did. */
  lemma SubmitHandled(app: AppState, now: nat)
    requires app.modalOpen && app.dialog.activeTab == Dialog.UrlTab
    ensures Handle(app, DialogSubmitUrl(now)).app == Settle(ApplyHandled(app, Dialog.UrlSubmit(app.dialog, now)))
    ensures Handle(app, DialogSubmitUrl(now)).completions == 0
  {
    HandleSettlesReaction(app, DialogSubmitUrl(now));
    SubmitReaction(app, now);
  }

  lemma HandleSettlesReaction(app: AppState, e: UiEvent)
    ensures Handle(app, e).app == Settle(React(app, e).0)
    ensures Handle(app, e).completions == if React(app, e).1 then 1 else 0
  {
  }

  lemma SubmitReaction(app: AppState, now: nat)
    requires app.modalOpen && app.dialog.activeTab == Dialog.UrlTab
    ensures React(app, DialogSubmitUrl(now)) == (ApplyHandled(app, Dialog.UrlSubmit(app.dialog, now)), false)
  {
  }

  lemma SubmittedCard(app: AppState, now: nat)
    requires !Text.IsBlank(app.dialog.urlInput)
    ensures var r := Settle(ApplyHandled(app, Dialog.UrlSubmit(app.dialog, now)));
      && r.slots == AddCard(app.slots, app.selectedSlotIndex,
           Card("custom-" + Text.NatToString(now), "Custom Card", Text.Trim(app.dialog.urlInput), None, None))
      && !r.modalOpen && r.selectedSlotIndex.None?
      && r.dialog.urlInput == ""
  {
  }

  /** Nothing is in flight and the detail view is closed. */
  predicate Quiescent(app: AppState) {
    && Settled(app)
    && AtRest(app.detail)
    && !app.flyout.timerPending && !app.flyout.outerFrame && !app.flyout.innerFrame
  }

  /** Whenever the live props could overwrite the snapshot, they hold the same values. */
  predicate SnapshotAgrees(app: AppState) {
    Flyout.Supplies(FlyoutProps(app.slots, app.detail)) ==>
      app.flyout.savedCard == DetailCard(app.slots, app.detail) && app.flyout.savedRect == app.detail.flyoutRect
  }

  /** A flight has just been started: phase `Starting`, timer and first frame queued. */
  predicate Launched(app: AppState) {
    && Settled(app)
    && SnapshotAgrees(app)
    && app.detail.flyoutActive
    && Flyout.HasSnapshot(app.flyout)
    && app.flyout.phase == Flyout.Starting
    && app.flyout.timerPending && !app.flyout.completed
    && app.flyout.outerFrame && !app.flyout.innerFrame
  }

  /** Handling one event is running the one-event sequence. */
  lemma HandleOne(app: AppState, e: UiEvent)
    ensures HandleAll(app, [e]) == Handle(app, e)
  {
    HandleAllCons(app, e, []);
  }

  /**
   * Clicking a filled slot while nothing is in flight launches the outward
   * flight with the slot's card and rectangle frozen in the snapshot.
   */
  lemma ClickLaunches(app: AppState, i: int, rect: Rect)
    requires Quiescent(app)
    requires HoldsCard(app.slots, i)
    ensures var r := Handle(app, ClickFilledSlot(i, rect));
      && r.completions == 0
      && Launched(r.app)
      && r.app.slots == app.slots
      && r.app.detail == FilledSlotClick(app.detail, i, rect)
      && r.app.flyout.savedCard == app.slots[i].card && r.app.flyout.savedRect == Some(rect)
  {
    var d := FilledSlotClick(app.detail, i, rect);
    var p := FlyoutProps(app.slots, d);
    assert p.card == app.slots[i].card && p.rect == Some(rect) && p.active;
    assert !app.flyout.props.active;
    assert Flyout.Activates(app.flyout, p);
  }

  /**
   * A launched flight runs two frames and its timer: exactly one completion
   * is reported, the controller takes it, and the fly-out ends idle with
   * nothing queued and its snapshot intact.
   */
  lemma FlightCompletes(s: AppState)
    requires Launched(s)
    ensures var r := HandleAll(s, [AnimationFrame, AnimationFrame, AnimationTimer]);
      && r.completions == 1
      && Settled(r.app)
      && r.app.slots == s.slots
      && r.app.detail == FlyoutComplete(s.detail)
      && r.app.flyout.phase == Flyout.Idle
      && !r.app.flyout.timerPending && !r.app.flyout.outerFrame && !r.app.flyout.innerFrame
      && r.app.flyout.savedCard == s.flyout.savedCard && r.app.flyout.savedRect == s.flyout.savedRect
  {
    var o1 := Handle(s, AnimationFrame);
    var s1 := o1.app;
    assert s1.flyout == Flyout.Frame(s.flyout);
    var o2 := Handle(s1, AnimationFrame);
    var s2 := o2.app;
    assert s2.flyout == Flyout.Frame(s1.flyout);
    assert s2.flyout.phase == Flyout.Animating;
    var o3 := Handle(s2, AnimationTimer);
    var t := Flyout.Timer(s2.flyout);
    assert t.callback;
    assert o3.completions == 1;
    assert o3.app.detail == FlyoutComplete(s.detail);
    assert !FlyoutComplete(s.detail).flyoutActive;
    HandleOne(s2, AnimationTimer);
    HandleAllCons(s1, AnimationFrame, [AnimationTimer]);
    HandleAllCons(s, AnimationFrame, [AnimationFrame, AnimationTimer]);
  }

  /** Once the outward flight is done and the overlay shows, nothing is in flight. */
  predicate Showing(s: AppState) {
    && Settled(s)
    && DetailShown(s)
    && !s.detail.flyoutActive
    && s.detail.flyoutRect.Some?
    && Flyout.HasSnapshot(s.flyout)
    && !s.flyout.timerPending && !s.flyout.outerFrame && !s.flyout.innerFrame
  }

  /** Closing the overlay launches the fly-back and leaves the binder alone. */
  lemma CloseLaunches(s: AppState)
    requires Showing(s)
    ensures var r := Handle(s, CloseDetailView);
      && r.completions == 0
      && Launched(r.app)
      && r.app.slots == s.slots
      && r.app.detail == CloseDetail(s.detail)
  {
    var d := CloseDetail(s.detail);
    var p := FlyoutProps(s.slots, d);
    assert p.active && !s.flyout.props.active;
    assert Flyout.Supplies(p);
    assert Flyout.Activates(s.flyout, p);
  }

  /**
   * "Remove" in the overlay empties the slot and launches the fly-back
   * anyway: the live card is gone, so the frozen snapshot is what flies.
   */
  lemma RemoveLaunches(s: AppState)
    requires Showing(s)
    ensures var r := Handle(s, RemoveInDetailView);
      && r.completions == 0
      && Launched(r.app)
      && r.app.slots == RemoveFromDetail(s.slots, s.detail)
      && r.app.detail == CloseDetail(s.detail)
      && r.app.flyout.savedCard == s.flyout.savedCard && r.app.flyout.savedRect == s.flyout.savedRect
  {
    var slots := RemoveFromDetail(s.slots, s.detail);
    var d := CloseDetail(s.detail);
    var p := FlyoutProps(slots, d);
    assert p.card.None?;
    assert !Flyout.Supplies(p);
    assert p.active && !s.flyout.props.active;
    assert Flyout.Activates(s.flyout, p);
  }

  /**
   * Opening the detail view on a filled slot, end to end: click it and let
   * the fly-out run (two frames and its timer). One completion is
   * reported, the overlay shows the slot's card with the slot hidden, the
   * fly-out is idle with the card and rectangle in its snapshot, and the
   * binder is unchanged.
   */
  lemma OpenCycle(app: AppState, i: int, rect: Rect)
    requires Quiescent(app)
    requires HoldsCard(app.slots, i)
    ensures var mid := HandleAll(app, [ClickFilledSlot(i, rect), AnimationFrame, AnimationFrame, AnimationTimer]);
      && mid.completions == 1
      && Showing(mid.app) && IsHidden(mid.app.detail, i)
      && mid.app.flyout.phase == Flyout.Idle
      && mid.app.slots == app.slots
      && mid.app.detail.detailSlotIndex == Some(i) && mid.app.detail.flyoutRect == Some(rect)
      && mid.app.flyout.savedCard == app.slots[i].card && mid.app.flyout.savedRect == Some(rect)
  {
    var flight := [AnimationFrame, AnimationFrame, AnimationTimer];
    ClickLaunches(app, i, rect);
    var s1 := Handle(app, ClickFilledSlot(i, rect)).app;
    FlightCompletes(s1);
    HandleAllCons(app, ClickFilledSlot(i, rect), flight);
    assert [ClickFilledSlot(i, rect)] + flight == [ClickFilledSlot(i, rect), AnimationFrame, AnimationFrame, AnimationTimer];
  }

  /**
   * The full detail cycle on a filled slot: open it as above, close the
   * overlay, let the fly-back run. Exactly two completions are reported
   * (one per flight), and afterwards no slot is hidden, the fly-out is
   * idle and the binder is unchanged.
   */
  lemma DetailCycleEndToEnd(app: AppState, i: int, rect: Rect)
    requires Quiescent(app)
    requires HoldsCard(app.slots, i)
    ensures var r := HandleAll(app, [ClickFilledSlot(i, rect), AnimationFrame, AnimationFrame, AnimationTimer,
                                     CloseDetailView, AnimationFrame, AnimationFrame, AnimationTimer]);
      && r.completions == 2
      && AtRest(r.app.detail)
      && (forall j :: !IsHidden(r.app.detail, j))
      && r.app.flyout.phase == Flyout.Idle
      && r.app.slots == app.slots
  {
    var head := [ClickFilledSlot(i, rect), AnimationFrame, AnimationFrame, AnimationTimer];
    var flight := [AnimationFrame, AnimationFrame, AnimationTimer];
    OpenCycle(app, i, rect);
    var s4 := HandleAll(app, head).app;
    CloseLaunches(s4);
    var s5 := Handle(s4, CloseDetailView).app;
    FlightCompletes(s5);
    HandleAllCons(s4, CloseDetailView, flight);
    HandleAllAppend(app, head, [CloseDetailView] + flight);
    assert head + ([CloseDetailView] + flight) ==
      [ClickFilledSlot(i, rect), AnimationFrame, AnimationFrame, AnimationTimer,
       CloseDetailView, AnimationFrame, AnimationFrame, AnimationTimer];
  }

  /**
   * Removing the card from the overlay closes it and starts flying the
   * removed card back from the frozen snapshot: the slot is empty at once,
   * and the fly-back draws the card that was removed, at the slot's
   * rectangle, starting off-screen.
   */
  lemma RemoveFromOverlay(app: AppState, i: int, rect: Rect)
    requires Quiescent(app)
    requires HoldsCard(app.slots, i)
    ensures var mid := HandleAll(app, [ClickFilledSlot(i, rect), AnimationFrame, AnimationFrame, AnimationTimer,
                                       RemoveInDetailView]);
      && mid.completions == 1
      && Launched(mid.app)
      && mid.app.slots == RemoveCard(app.slots, i)
      && mid.app.detail.flyoutDirection == In && !mid.app.detail.detailModalOpen
      && Flyout.View(mid.app.flyout) == Some(Flyout.Visual(rect, app.slots[i].card.value, Flyout.OffScreen))
  {
    var head := [ClickFilledSlot(i, rect), AnimationFrame, AnimationFrame, AnimationTimer];
    OpenCycle(app, i, rect);
    var s4 := HandleAll(app, head).app;
    RemoveLaunches(s4);
    var s5 := Handle(s4, RemoveInDetailView).app;
    assert s5.flyout.props.direction == In;
    HandleOne(s4, RemoveInDetailView);
    HandleAllAppend(app, head, [RemoveInDetailView]);
    assert head + [RemoveInDetailView] == [ClickFilledSlot(i, rect), AnimationFrame, AnimationFrame, AnimationTimer,
                                           RemoveInDetailView];
  }

  /**
   * The fly-back after a removal completes like any other: two
   * completions in all, the detail view at rest, the slot still empty.
   */
  lemma RemoveFromOverlayFliesBack(app: AppState, i: int, rect: Rect)
    requires Quiescent(app)
    requires HoldsCard(app.slots, i)
    ensures var r := HandleAll(app, [ClickFilledSlot(i, rect), AnimationFrame, AnimationFrame, AnimationTimer,
                                     RemoveInDetailView, AnimationFrame, AnimationFrame, AnimationTimer]);
      && r.completions == 2
      && AtRest(r.app.detail)
      && r.app.slots == RemoveCard(app.slots, i)
  {
    var head := [ClickFilledSlot(i, rect), AnimationFrame, AnimationFrame, AnimationTimer, RemoveInDetailView];
    var flight := [AnimationFrame, AnimationFrame, AnimationTimer];
    RemoveFromOverlay(app, i, rect);
    var s5 := HandleAll(app, head).app;
    FlightCompletes(s5);
    HandleAllAppend(app, head, flight);
    assert head + flight ==
      [ClickFilledSlot(i, rect), AnimationFrame, AnimationFrame, AnimationTimer,
       RemoveInDetailView, AnimationFrame, AnimationFrame, AnimationTimer];
  }

  lemma HandleAllCons(app: AppState, e: UiEvent, rest: seq<UiEvent>)
    ensures HandleAll(app, [e] + rest) ==
      var r := Handle(app, e);
      var t := HandleAll(r.app, rest);
      Outcome(t.app, t.completions + r.completions)
  {
    assert ([e] + rest)[1..] == rest;
  }

  /** Running two event sequences back to back is running their concatenation. */
  lemma {:induction false} HandleAllAppend(app: AppState, first: seq<UiEvent>, second: seq<UiEvent>)
    ensures HandleAll(app, first + second) ==
      var a := HandleAll(app, first);
      var b := HandleAll(a.app, second);
      Outcome(b.app, a.completions + b.completions)
    decreases |first|
  {
    if |first| == 0 {
      assert first + second == second;
    } else {
      assert (first + second)[1..] == first[1..] + second;
      HandleAllAppend(Handle(app, first[0]).app, first[1..], second);
    }
  }
}

=== FILE: binder.dfy ===
/**
 * The slot store of the binder: a fixed-length sequence of slots, its
 * start-up value, the two point updates (place a card, take it out) and
 * the split into pages of nine that the book renders, with the
 * (page, offset) -> slot index arithmetic used when a rendered slot is
 * clicked.
 */
module Binder {
  import opened Types
  import opened Text

  const TotalSlots: nat := 72
  const CardsPerPage: nat := 9

  /** The identifier the initialiser gives slot `i`: "slot-" followed by `i` in decimal. */
  function SlotId(i: nat): string {
    "slot-" + NatToString(i)
  }

  /** The identifiers of a slot sequence, in order. */
  function Ids(slots: seq<Slot>): (ids: seq<string>)
    ensures |ids| == |slots|
  {
    seq(|slots|, i requires 0 <= i < |slots| => slots[i].id)
  }

  predicate AllEmpty(slots: seq<Slot>) {
    forall i :: 0 <= i < |slots| ==> slots[i].card.None?
  }

  /** No two slots share an identifier. */
  predicate DistinctIds(slots: seq<Slot>) {
    forall i, j :: 0 <= i < j < |slots| ==> slots[i].id != slots[j].id
  }

  /** A binder of `TotalSlots` empty slots with identifiers "slot-0" .. "slot-71". */
  function InitialSlots(): seq<Slot> {
    seq(TotalSlots, i requires 0 <= i < TotalSlots => Slot(SlotId(i), None))
  }

  /**
   * The initial binder has exactly `TotalSlots` slots, all empty, slot `i`
   * is named "slot-i", and no two names coincide.
   */
  lemma InitialSlotsShape()
    ensures |InitialSlots()| == TotalSlots
    ensures AllEmpty(InitialSlots())
    ensures forall i :: 0 <= i < TotalSlots ==> InitialSlots()[i].id == "slot-" + NatToString(i)
    ensures DistinctIds(InitialSlots())
  {
    var slots := InitialSlots();
    forall i, j | 0 <= i < j < |slots| ensures slots[i].id != slots[j].id {
      if slots[i].id == slots[j].id {
        assert NatToString(i) == slots[i].id[5..];
        assert NatToString(j) == slots[j].id[5..];
        NatToStringInjective(i, j);
      }
    }
  }

  /**
   * What the browser's storage held under the binder key when the app
   * started: nothing (or an empty string), text that did not parse, or a
   * parsed slot sequence.
   */
  datatype Stored = NothingStored | Unparseable | Parsed(slots: seq<Slot>)

  /**
   * The initial binder: the stored slots when they parsed, the fresh
   * all-empty binder otherwise.
   */
  function LoadSlots(stored: Stored): (slots: seq<Slot>)
    ensures stored.Parsed? ==> slots == stored.slots
    ensures !stored.Parsed? ==>
      && |slots| == TotalSlots
      && AllEmpty(slots)
      && DistinctIds(slots)
      && forall i :: 0 <= i < |slots| ==> slots[i].id == "slot-" + NatToString(i)
  {
    InitialSlotsShape();
    match stored
    case Parsed(saved) => saved
    case _ => InitialSlots()
  }

  /** Whether `i` addresses a slot; JavaScript indexing yields `undefined` otherwise. */
  predicate InRange(slots: seq<Slot>, i: int) {
    0 <= i < |slots|
  }

  /**
   * Place `card` into the selected slot. With no selection, or a selection
   * that addresses no slot, the binder is returned unchanged.
   */
  function AddCard(slots: seq<Slot>, selected: Option<int>, card: Card): (r: seq<Slot>)
    ensures |r| == |slots|
    ensures Ids(r) == Ids(slots)
    ensures selected.Some? && InRange(slots, selected.value) ==> r[selected.value].card == Some(card)
    ensures forall j :: 0 <= j < |r| && selected != Some(j) ==> r[j] == slots[j]
    ensures selected.None? || !InRange(slots, selected.value) ==> r == slots
  {
    match selected
    case Some(i) =>
      if InRange(slots, i) then slots[i := slots[i].(card := Some(card))] else slots
    case None => slots
  }

  /** Empty slot `i`; an index that addresses no slot leaves the binder unchanged. */
  function RemoveCard(slots: seq<Slot>, i: int): (r: seq<Slot>)
    ensures |r| == |slots|
    ensures Ids(r) == Ids(slots)
    ensures InRange(slots, i) ==> r[i].card == None
    ensures forall j :: 0 <= j < |r| && j != i ==> r[j] == slots[j]
    ensures !InRange(slots, i) ==> r == slots
  {
    if InRange(slots, i) then slots[i := slots[i].(card := None)] else slots
  }

  /** Removing twice is removing once. */
  lemma RemoveIdempotent(slots: seq<Slot>, i: int)
    ensures RemoveCard(RemoveCard(slots, i), i) == RemoveCard(slots, i)
  {
  }

  /**
   * Adding a card at slot `i` and removing at `i` again leaves slot `i`
   * empty under its own identifier and every other slot as it was.
   */
  lemma AddThenRemove(slots: seq<Slot>, i: int, card: Card)
    requires InRange(slots, i)
    ensures RemoveCard(AddCard(slots, Some(i), card), i) == slots[i := Slot(slots[i].id, None)]
  {
  }

  /** An update the user can make to the binder. */
  datatype Edit = Place(selected: Option<int>, card: Card) | Clear(index: int)

  function ApplyEdit(slots: seq<Slot>, e: Edit): seq<Slot> {
    match e
    case Place(selected, card) => AddCard(slots, selected, card)
    case Clear(i) => RemoveCard(slots, i)
  }

  function ApplyEdits(slots: seq<Slot>, edits: seq<Edit>): seq<Slot>
    decreases |edits|
  {
    if |edits| == 0 then slots else ApplyEdits(ApplyEdit(slots, edits[0]), edits[1..])
  }

  /**
   * Slot order and count never change: after any run of additions and
   * removals the slot identifiers are exactly the ones the binder started with.
   */
  lemma {:induction false} EditsKeepIds(slots: seq<Slot>, edits: seq<Edit>)
    ensures |ApplyEdits(slots, edits)| == |slots|
    ensures Ids(ApplyEdits(slots, edits)) == Ids(slots)
    decreases |edits|
  {
    if |edits| > 0 {
      EditsKeepIds(ApplyEdit(slots, edits[0]), edits[1..]);
    }
  }

  // ---------------------------------------------------------------------
  // Pages
  // ---------------------------------------------------------------------

  function Min(a: int, b: int): int {
    if a <= b then a else b
  }

  /** All pages laid end to end. */
  function Flatten(pages: seq<seq<Slot>>): seq<Slot>
    decreases |pages|
  {
    if |pages| == 0 then [] else Flatten(pages[..|pages| - 1]) + pages[|pages| - 1]
  }

  /** The slot index that offset `offset` on page `page` stands for. */
  function GlobalIndex(page: nat, offset: nat): nat {
    page * CardsPerPage + offset
  }

  /** Every slot index has exactly one (page, offset) position, and back. */
  lemma GlobalIndexRoundTrip(page: nat, offset: nat, i: nat)
    ensures offset < CardsPerPage ==>
      GlobalIndex(page, offset) / CardsPerPage == page && GlobalIndex(page, offset) % CardsPerPage == offset
    ensures GlobalIndex(i / CardsPerPage, i % CardsPerPage) == i
  {
  }

  /**
   * Cut the binder into consecutive pages of `CardsPerPage` slots, the
   * last page taking what is left.
   */
  method SplitPages(slots: seq<Slot>) returns (pages: seq<seq<Slot>>)
    ensures Flatten(pages) == slots
    ensures |pages| == (|slots| + CardsPerPage - 1) / CardsPerPage
    ensures forall p :: 0 <= p < |pages| ==> 1 <= |pages[p]| <= CardsPerPage
    ensures forall p :: 0 <= p < |pages| - 1 ==> |pages[p]| == CardsPerPage
    ensures forall p, s :: 0 <= p < |pages| && 0 <= s < |pages[p]| ==>
      GlobalIndex(p, s) < |slots| && pages[p][s] == slots[GlobalIndex(p, s)]
  {
    var n := |slots|;
    pages := [];
    var i := 0;
    while i < n
      invariant i == CardsPerPage * |pages|
      invariant |pages| == 0 || (|pages| - 1) * CardsPerPage < n
      invariant forall p :: 0 <= p < |pages| ==>
        pages[p] == slots[p * CardsPerPage..Min(p * CardsPerPage + CardsPerPage, n)]
      invariant Flatten(pages) == slots[..Min(i, n)]
    {
      var page := slots[i..Min(i + CardsPerPage, n)];
      assert slots[..Min(i + CardsPerPage, n)] == slots[..i] + page;
      pages := pages + [page];
      i := i + CardsPerPage;
    }
    PageFacts(slots, pages);
  }

  lemma PageFacts(slots: seq<Slot>, pages: seq<seq<Slot>>)
    requires |pages| == 0 || (|pages| - 1) * CardsPerPage < |slots|
    requires |slots| <= CardsPerPage * |pages|
    requires forall p :: 0 <= p < |pages| ==>
      pages[p] == slots[p * CardsPerPage..Min(p * CardsPerPage + CardsPerPage, |slots|)]
    ensures |pages| == (|slots| + CardsPerPage - 1) / CardsPerPage
    ensures forall p :: 0 <= p < |pages| ==> 1 <= |pages[p]| <= CardsPerPage
    ensures forall p :: 0 <= p < |pages| - 1 ==> |pages[p]| == CardsPerPage
    ensures forall p, s :: 0 <= p < |pages| && 0 <= s < |pages[p]| ==>
      GlobalIndex(p, s) < |slots| && pages[p][s] == slots[GlobalIndex(p, s)]
  {
  }

  /** The observed configuration: 72 slots make 8 full pages. */
  lemma SeventyTwoSlotsMakeEightPages()
    ensures (TotalSlots + CardsPerPage - 1) / CardsPerPage == 8
    ensures TotalSlots == 8 * CardsPerPage
  {
  }
}

=== FILE: catalog.dfy ===
/**
 * Image-URL resolution for catalog cards: a prioritised chain of sources,
 * each of which may be missing, the first usable one winning.
 *
 * A catalog card is the loosely-shaped record the card catalog returns;
 * every field it may or may not carry is an `Option`, and the two image
 * methods its client library may attach are represented by what calling
 * them yields for each (quality, extension) request.
 */
module Catalog {
  import opened Types
  import opened Text

  datatype Quality = Low | High
  datatype Extension = Webp | Png

  function QualityText(q: Quality): string {
    match q
    case Low => "low"
    case High => "high"
  }

  function ExtensionText(e: Extension): string {
    match e
    case Webp => "webp"
    case Png => "png"
  }

  /** What one call of a library image method gives: an exception or a value. */
  datatype CallOutcome = Threw | Returned(url: Option<string>)

  /** A library image method: not attached, or attached with its outcome for each request. */
  datatype ImageMethod =
    | NoMethod
    | Method(lowWebp: CallOutcome, lowPng: CallOutcome, highWebp: CallOutcome, highPng: CallOutcome)

  function Call(m: ImageMethod, q: Quality, e: Extension): CallOutcome
    requires m.Method?
  {
    match (q, e)
    case (Low, Webp) => m.lowWebp
    case (Low, Png) => m.lowPng
    case (High, Webp) => m.highWebp
    case (High, Png) => m.highPng
  }

  /** The nested `set` record: its id, display name and the id of its series. */
  datatype CardSet = CardSet(id: Option<string>, name: Option<string>, seriesId: Option<string>)

  /** The alternative image record some catalog formats carry. */
  datatype Images = Images(small: Option<string>, large: Option<string>)

  datatype CatalogCard = CatalogCard(
    id: Option<string>,
    name: Option<string>,
    image: Option<string>,
    localId: Option<string>,
    cardSet: Option<CardSet>,
    seriesId: Option<string>,
    rarity: Option<string>,
    getImageUrl: ImageMethod,
    getImageURL: ImageMethod,
    images: Option<Images>)

  /** JavaScript truthiness of an optional string: present and non-empty. */
  predicate Truthy(s: Option<string>) {
    s.Some? && s.value != ""
  }

  const AssetHost: string := "https://assets.tcgdex.net/en/"

  // ---------------------------------------------------------------------
  // The five sources, in order of precedence
  // ---------------------------------------------------------------------

  /** Source 1: the card's own image base URL with "/{quality}.{extension}" appended. */
  function FromImageField(card: CatalogCard, q: Quality, e: Extension): Option<string> {
    if Truthy(card.image) then Some(card.image.value + "/" + QualityText(q) + "." + ExtensionText(e)) else None
  }

  /** A library method's answer is usable when it is a non-empty string free of "undefined". */
  function Accept(outcome: CallOutcome): (r: Option<string>)
    ensures r.Some? <==>
      outcome.Returned? && Truthy(outcome.url) && !(exists i :: OccursAt(outcome.url.value, "undefined", i))
    ensures r.Some? ==> r == outcome.url
  {
    match outcome
    case Threw => None
    case Returned(url) => if Truthy(url) && !Contains(url.value, "undefined") then url else None
  }

  /** Sources 2 and 3: a library method, if attached, and if its answer is usable. */
  function FromMethod(m: ImageMethod, q: Quality, e: Extension): Option<string> {
    match m
    case NoMethod => None
    case Method(_, _, _, _) => Accept(Call(m, q, e))
  }

  /** The series id: the set's series id if truthy, otherwise the card's own. */
  function SeriesIdOf(card: CatalogCard): Option<string> {
    if card.cardSet.Some? && Truthy(card.cardSet.value.seriesId) then card.cardSet.value.seriesId else card.seriesId
  }

  function SetIdOf(card: CatalogCard): Option<string> {
    if card.cardSet.Some? then card.cardSet.value.id else None
  }

  /** Source 4: the asset-host URL built from series, set and local ids, when all three are truthy. */
  function FromIds(card: CatalogCard, q: Quality, e: Extension): Option<string> {
    var setId := SetIdOf(card);
    var seriesId := SeriesIdOf(card);
    if Truthy(setId) && Truthy(card.localId) && Truthy(seriesId) then
      Some(AssetHost + seriesId.value + "/" + setId.value + "/" + card.localId.value + "/"
        + QualityText(q) + "." + ExtensionText(e))
    else None
  }

  /** Source 5: `images.large` for high quality, `images.small` for low, when truthy. */
  function FromImages(card: CatalogCard, q: Quality): Option<string> {
    match card.images
    case None => None
    case Some(imgs) =>
      var url := if q == High then imgs.large else imgs.small;
      if Truthy(url) then url else None
  }

  /**
   * The image URL of a catalog card for a quality and extension, or `None`
   * when no source yields one. A built or accepted URL is never empty.
   */
  function ImageUrl(card: CatalogCard, q: Quality, e: Extension): (r: Option<string>)
    ensures r.Some? ==> r.value != ""
    ensures Truthy(card.image) ==> r == Some(card.image.value + "/" + QualityText(q) + "." + ExtensionText(e))
  {
    if Truthy(card.image) then FromImageField(card, q, e)
    else
      var viaUrl := FromMethod(card.getImageUrl, q, e);
      if viaUrl.Some? then viaUrl
      else
        var viaURL := FromMethod(card.getImageURL, q, e);
        if viaURL.Some? then viaURL
        else
          var built := FromIds(card, q, e);
          if built.Some? then built
          else FromImages(card, q)
  }

  // ---------------------------------------------------------------------
  // Precedence, stated independently
  // ---------------------------------------------------------------------

  /** The sources in order of precedence. */
  function Sources(card: CatalogCard, q: Quality, e: Extension): seq<Option<string>> {
    [FromImageField(card, q, e), FromMethod(card.getImageUrl, q, e), FromMethod(card.getImageURL, q, e),
     FromIds(card, q, e), FromImages(card, q)]
  }

  /** The first present value of a list of optional values. */
  function FirstPresent(xs: seq<Option<string>>): (r: Option<string>)
    ensures r.None? <==> forall k :: 0 <= k < |xs| ==> xs[k].None?
    ensures r.Some? ==> exists k :: 0 <= k < |xs| && xs[k] == r && forall j :: 0 <= j < k ==> xs[j].None?
  {
    if |xs| == 0 then None
    else if xs[0].Some? then xs[0]
    else
      var r := FirstPresent(xs[1..]);
      assert forall k :: 1 <= k < |xs| ==> xs[k] == xs[1..][k - 1];
      r
  }

  /**
   * The chain is exactly "first present source": image field, then
   * `getImageUrl`, then `getImageURL`, then the built URL, then `images`;
   * and it yields nothing exactly when every source fails.
   */
  lemma PrecedenceOrder(card: CatalogCard, q: Quality, e: Extension)
    ensures ImageUrl(card, q, e) == FirstPresent(Sources(card, q, e))
    ensures ImageUrl(card, q, e).None? <==>
      && !Truthy(card.image)
      && FromMethod(card.getImageUrl, q, e).None?
      && FromMethod(card.getImageURL, q, e).None?
      && FromIds(card, q, e).None?
      && FromImages(card, q).None?
  {
    var xs := Sources(card, q, e);
    assert xs[4..5][1..] == [];
    assert FirstPresent(xs[4..5]) == xs[4];
    assert xs[3..5][1..] == xs[4..5];
    assert FirstPresent(xs[3..5]) == if xs[3].Some? then xs[3] else xs[4];
    assert xs[2..5][1..] == xs[3..5];
    assert FirstPresent(xs[2..5]) == if xs[2].Some? then xs[2] else FirstPresent(xs[3..5]);
    assert xs[1..5][1..] == xs[2..5];
    assert FirstPresent(xs[1..5]) == if xs[1].Some? then xs[1] else FirstPresent(xs[2..5]);
    assert xs[1..] == xs[1..5];
  }

  /**
   * A library method's answer is used exactly when the image field is not
   * truthy, the method is attached and returns a non-empty string without
   * "undefined"; `getImageUrl` is asked before `getImageURL`, and a method
   * that throws counts as absent.
   */
  lemma MethodAnswerUsed(card: CatalogCard, q: Quality, e: Extension)
    requires !Truthy(card.image)
    ensures card.getImageUrl.Method? && Call(card.getImageUrl, q, e).Returned? ==>
      var url := Call(card.getImageUrl, q, e).url;
      (Truthy(url) && !(exists i :: OccursAt(url.value, "undefined", i))) ==> ImageUrl(card, q, e) == url
    ensures FromMethod(card.getImageUrl, q, e).None? && FromMethod(card.getImageURL, q, e).Some? ==>
      ImageUrl(card, q, e) == Call(card.getImageURL, q, e).url
    ensures card.getImageUrl.Method? && Call(card.getImageUrl, q, e).Threw? ==>
      ImageUrl(card, q, e) == ImageUrl(card.(getImageUrl := NoMethod), q, e)
  {
  }

  /**
   * The built URL is used only when the earlier sources fail and set id,
   * local id and series id are all truthy; it then has the exact shape
   * "https://assets.tcgdex.net/en/{series}/{set}/{local}/{quality}.{extension}",
   * with the set's series id preferred over the card's.
   */
  lemma BuiltUrlShape(card: CatalogCard, q: Quality, e: Extension, setId: string, localId: string, seriesId: string)
    requires !Truthy(card.image)
    requires FromMethod(card.getImageUrl, q, e).None? && FromMethod(card.getImageURL, q, e).None?
    requires setId != "" && localId != "" && seriesId != ""
    requires card.cardSet.Some? && card.cardSet.value.id == Some(setId) && card.localId == Some(localId)
    requires SeriesIdOf(card) == Some(seriesId)
    ensures ImageUrl(card, q, e) ==
      Some(AssetHost + seriesId + "/" + setId + "/" + localId + "/"
        + QualityText(q) + "." + ExtensionText(e))
    ensures Truthy(card.cardSet.value.seriesId) ==> seriesId == card.cardSet.value.seriesId.value
    ensures !Truthy(card.cardSet.value.seriesId) ==> card.seriesId == Some(seriesId)
  {
  }

  /** Without a truthy set id, local id or series id nothing is built. */
  lemma NothingBuiltWithoutIds(card: CatalogCard, q: Quality, e: Extension)
    requires !Truthy(SetIdOf(card)) || !Truthy(card.localId) || !Truthy(SeriesIdOf(card))
    ensures FromIds(card, q, e).None?
  {
  }

  /**
   * The `images` record is the last resort: high quality reads `large`,
   * low quality reads `small`, and only a truthy entry is used.
   */
  lemma ImagesFallback(card: CatalogCard, q: Quality, e: Extension)
    requires !Truthy(card.image)
    requires FromMethod(card.getImageUrl, q, e).None? && FromMethod(card.getImageURL, q, e).None?
    requires FromIds(card, q, e).None?
    ensures card.images.None? ==> ImageUrl(card, q, e).None?
    ensures card.images.Some? && q == High ==>
      ImageUrl(card, q, e) == (if Truthy(card.images.value.large) then card.images.value.large else None)
    ensures card.images.Some? && q == Low ==>
      ImageUrl(card, q, e) == (if Truthy(card.images.value.small) then card.images.value.small else None)
  {
  }
}

=== FILE: detail.dfy ===
/**
 * The detail-view controller of the app: which slot is shown enlarged,
 * whether the fly-out transition is running and in which direction,
 * where it starts from, and whether the detail overlay is open. The three
 * handlers (filled-slot click, fly-out completion, detail close) form a
 * small state machine; `IsHidden` is the grid slot's derived visibility.
 */
module Detail {
  import opened Types
  import Binder

  datatype DetailState = DetailState(
    detailSlotIndex: Option<int>,
    flyoutActive: bool,
    flyoutDirection: Direction,
    flyoutRect: Option<Rect>,
    detailModalOpen: bool)

  /** The values the app starts with. */
  const InitialDetail: DetailState := DetailState(None, false, Out, None, false)

  /** No slot is singled out and nothing is running or open. */
  predicate AtRest(st: DetailState) {
    st.detailSlotIndex.None? && !st.flyoutActive && st.flyoutRect.None? && !st.detailModalOpen
  }

  /**
   * Slot `index` is rendered invisible in the grid: it is the detail slot
   * and its card is either flying or shown in the overlay.
   */
  predicate IsHidden(st: DetailState, index: int) {
    st.detailSlotIndex == Some(index) && (st.flyoutActive || st.detailModalOpen)
  }

  /** At most the detail slot is hidden, and nothing is hidden at rest. */
  lemma OnlyDetailSlotHidden(st: DetailState, i: int, j: int)
    requires IsHidden(st, i)
    ensures st.detailSlotIndex == Some(i) && !AtRest(st)
    ensures IsHidden(st, j) <==> j == i
  {
  }

  /** The overlay is never open while a fly-out runs, in either direction. */
  predicate Coherent(st: DetailState) {
    st.detailModalOpen ==> !st.flyoutActive
  }

  /**
   * A filled slot was clicked: remember it and where it sits, and start
   * the outward fly-out. From then on exactly that slot is hidden.
   */
  function FilledSlotClick(st: DetailState, index: int, rect: Rect): (r: DetailState)
    ensures r.flyoutActive && r.flyoutDirection == Out && r.flyoutRect == Some(rect)
    ensures forall j :: IsHidden(r, j) <==> j == index
    ensures r.detailModalOpen == st.detailModalOpen
  {
    st.(detailSlotIndex := Some(index), flyoutRect := Some(rect), flyoutDirection := Out, flyoutActive := true)
  }

  /**
   * The fly-out reports completion. After an outward flight the overlay
   * opens and the detail slot stays hidden; after an inward flight every
   * trace of the detail view is dropped and no slot is hidden.
   */
  function FlyoutComplete(st: DetailState): (r: DetailState)
    ensures !r.flyoutActive
    ensures r.flyoutDirection == st.flyoutDirection
    ensures st.flyoutDirection == Out ==>
      r.detailModalOpen && r.detailSlotIndex == st.detailSlotIndex && r.flyoutRect == st.flyoutRect
    ensures st.flyoutDirection == In ==>
      r.detailSlotIndex.None? && r.flyoutRect.None? && r.detailModalOpen == st.detailModalOpen
    ensures st.flyoutDirection == In && !st.detailModalOpen ==> AtRest(r)
    ensures forall j :: IsHidden(r, j) <==> st.flyoutDirection == Out && st.detailSlotIndex == Some(j)
  {
    if st.flyoutDirection == Out then
      st.(detailModalOpen := true, flyoutActive := false)
    else
      st.(flyoutActive := false, flyoutRect := None, detailSlotIndex := None)
  }

  /**
   * The overlay is dismissed: it closes and the inward fly-out starts
   * toward the slot it came from, which stays hidden meanwhile.
   */
  function CloseDetail(st: DetailState): (r: DetailState)
    ensures !r.detailModalOpen && r.flyoutActive && r.flyoutDirection == In
    ensures r.detailSlotIndex == st.detailSlotIndex && r.flyoutRect == st.flyoutRect
    ensures forall j :: IsHidden(r, j) <==> st.detailSlotIndex == Some(j)
  {
    st.(detailModalOpen := false, flyoutDirection := In, flyoutActive := true)
  }

  /** The card the overlay and the fly-out show: the detail slot's card, if any. */
  function DetailCard(slots: seq<Slot>, st: DetailState): (c: Option<Card>)
    ensures c.Some? <==>
      st.detailSlotIndex.Some? && Binder.InRange(slots, st.detailSlotIndex.value)
      && slots[st.detailSlotIndex.value].card.Some?
    ensures c.Some? ==> c == slots[st.detailSlotIndex.value].card
  {
    match st.detailSlotIndex
    case None => None
    case Some(i) => if Binder.InRange(slots, i) then slots[i].card else None
  }

  /** "Remove" in the overlay empties the detail slot; without one it does nothing. */
  function RemoveFromDetail(slots: seq<Slot>, st: DetailState): (r: seq<Slot>)
    ensures |r| == |slots|
    ensures Binder.Ids(r) == Binder.Ids(slots)
    ensures st.detailSlotIndex.Some? && Binder.InRange(slots, st.detailSlotIndex.value) ==>
      r[st.detailSlotIndex.value] == slots[st.detailSlotIndex.value].(card := None)
    ensures DetailCard(r, st).None?
    ensures forall j :: 0 <= j < |r| && st.detailSlotIndex != Some(j) ==> r[j] == slots[j]
  {
    match st.detailSlotIndex
    case None => slots
    case Some(i) => Binder.RemoveCard(slots, i)
  }

  /** Every handler keeps the overlay and the outward flight apart. */
  lemma HandlersKeepCoherent(st: DetailState, index: int, rect: Rect)
    requires Coherent(st)
    ensures Coherent(CloseDetail(st))
    ensures Coherent(FlyoutComplete(st))
    ensures !st.detailModalOpen ==> Coherent(FilledSlotClick(st, index, rect))
  {
  }

  /**
   * A full view cycle — click a filled slot, the outward flight completes,
   * the overlay is closed, the inward flight completes — returns to rest
   * from any starting state, and the clicked slot is hidden at every
   * intermediate step.
   */
  lemma ViewCycleReturnsToRest(st: DetailState, index: int, rect: Rect)
    ensures var s1 := FilledSlotClick(st, index, rect);
      var s2 := FlyoutComplete(s1);
      var s3 := CloseDetail(s2);
      var s4 := FlyoutComplete(s3);
      && IsHidden(s1, index) && IsHidden(s2, index) && IsHidden(s3, index)
      && s2.detailModalOpen && !s2.flyoutActive
      && AtRest(s4)
      && forall j :: !IsHidden(s4, j)
  {
  }
}

=== FILE: flyout.dfy ===
/**
 * The fly-out component: the card image that travels between its grid
 * slot and the detail overlay. It keeps a frozen snapshot of the card and
 * the slot rectangle, walks through the phases idle -> starting ->
 * animating -> done, and reports completion through a callback guarded by
 * a one-shot latch.
 *
 * The browser's scheduling is made explicit as events:
 *   - `Commit(props)`: the component is rendered with new props and its
 *     two effects run (the snapshot effect, then the animation effect when
 *     `active` or `direction` changed);
 *   - `Frame`: an animation frame, running the frame callbacks queued
 *     before it;
 *   - `Timer`: the pending completion timer fires.
 * The animation effect depends on the completion callback too; in the
 * app that callback changes exactly when the direction does, so
 * `direction` stands for both.
 */
module Flyout {
  import opened Types

  datatype Phase = Idle | Starting | Animating | Done

  /** The props the component is rendered with. */
  datatype Props = Props(card: Option<Card>, rect: Option<Rect>, direction: Direction, active: bool)

  /**
   * Component state: the phase, the completion latch, the snapshot,
   * whether a completion timer is scheduled, the two-deep chain of frame
   * callbacks (`outerFrame`: a first-frame callback is queued;
   * `innerFrame`: the second-frame callback that switches to `Animating` is
   * queued), and the props of the last commit.
   */
  datatype Flyout = Flyout(
    phase: Phase,
    completed: bool,
    savedCard: Option<Card>,
    savedRect: Option<Rect>,
    timerPending: bool,
    outerFrame: bool,
    innerFrame: bool,
    props: Props)

  predicate HasSnapshot(f: Flyout) {
    f.savedCard.Some? && f.savedRect.Some?
  }

  /** The live props carry everything a snapshot needs. */
  predicate Supplies(p: Props) {
    p.active && p.card.Some? && p.rect.Some?
  }

  /** The snapshot effect: capture card and rectangle while active and both present. */
  function SaveSnapshot(f: Flyout, p: Props): (g: Flyout)
    ensures Supplies(p) ==> g.savedCard == p.card && g.savedRect == p.rect
    ensures !Supplies(p) ==> g.savedCard == f.savedCard && g.savedRect == f.savedRect
    ensures g.(savedCard := f.savedCard, savedRect := f.savedRect) == f
  {
    if Supplies(p) then f.(savedCard := p.card, savedRect := p.rect) else f
  }

  /**
   * The animation effect, after the previous run's cleanup cancelled its
   * timer. With a snapshot and `active` it restarts the sequence: latch
   * cleared, phase `Starting`, a two-frame chain and a timer queued.
   * Inactive, it returns to `Idle`. Active without a snapshot it does
   * nothing at all.
   */
  function AnimationEffect(f: Flyout, p: Props): (g: Flyout)
    ensures p.active && HasSnapshot(f) ==>
      g.phase == Starting && !g.completed && g.outerFrame && g.timerPending
    ensures !p.active ==> g.phase == Idle && g.completed == f.completed && g.timerPending == f.timerPending
    ensures p.active && !HasSnapshot(f) ==> g == f
    ensures g.(phase := f.phase, completed := f.completed, outerFrame := f.outerFrame, timerPending := f.timerPending) == f
  {
    if p.active && HasSnapshot(f) then
      f.(completed := false, phase := Starting, outerFrame := true, timerPending := true)
    else if !p.active then
      f.(phase := Idle)
    else
      f
  }

  /** The animation effect runs on this commit. */
  predicate Reruns(f: Flyout, p: Props) {
    p.active != f.props.active || p.direction != f.props.direction
  }

  /** This commit restarts the fly-out sequence. */
  predicate Activates(f: Flyout, p: Props) {
    Reruns(f, p) && p.active && HasSnapshot(SaveSnapshot(f, p))
  }

  /** Render with props `p`: the snapshot effect, then the animation effect if its inputs changed. */
  function Commit(f: Flyout, p: Props): (g: Flyout)
    ensures g.props == p
    ensures Supplies(p) ==> g.savedCard == p.card && g.savedRect == p.rect
    ensures !Supplies(p) ==> g.savedCard == f.savedCard && g.savedRect == f.savedRect
    ensures Activates(f, p) ==>
      g.phase == Starting && !g.completed && g.timerPending && g.outerFrame
    ensures Reruns(f, p) && !p.active ==> g.phase == Idle && !g.timerPending
    ensures Reruns(f, p) && p.active && !HasSnapshot(g) ==> g.phase == f.phase && !g.timerPending
    ensures !Reruns(f, p) ==>
      g.phase == f.phase && g.completed == f.completed && g.timerPending == f.timerPending
    ensures g.innerFrame == f.innerFrame && g.outerFrame == (f.outerFrame || Activates(f, p))
    ensures !Activates(f, p) ==> g.completed == f.completed
  {
    var g := SaveSnapshot(f, p).(props := p);
    if Reruns(f, p) then AnimationEffect(g.(timerPending := false), p) else g
  }

  /** The first render: both effects run. */
  function Mount(p: Props): (f: Flyout)
    ensures f.props == p
    ensures !Supplies(p) ==> f.phase == Idle && !f.timerPending && !HasSnapshot(f)
    ensures !Supplies(p) ==> !f.outerFrame && !f.innerFrame && !f.completed
  {
    var initial := Flyout(Idle, false, None, None, false, false, false, p);
    AnimationEffect(SaveSnapshot(initial, p), p)
  }

  /**
   * An animation frame: a queued second-frame callback switches to
   * `Animating`, and a queued first-frame callback queues the second one.
   * Frame callbacks are not cancelled by the effect's cleanup.
   */
  function Frame(f: Flyout): (g: Flyout)
    ensures f.innerFrame ==> g.phase == Animating
    ensures !f.innerFrame ==> g.phase == f.phase
    ensures g.innerFrame == f.outerFrame && !g.outerFrame
    ensures g.completed == f.completed && g.timerPending == f.timerPending
    ensures g.(phase := f.phase, innerFrame := f.innerFrame, outerFrame := f.outerFrame) == f
  {
    f.(phase := if f.innerFrame then Animating else f.phase, innerFrame := f.outerFrame, outerFrame := false)
  }

  datatype Fired = Fired(state: Flyout, callback: bool)

  /**
   * The completion timer fires: if the latch is clear it is set, the phase
   * becomes `Done` and the completion callback runs; otherwise nothing
   * happens. Without a scheduled timer there is nothing to fire.
   */
  function Timer(f: Flyout): (r: Fired)
    ensures r.callback <==> f.timerPending && !f.completed
    ensures r.callback ==> r.state.phase == Done
    ensures !r.callback ==> r.state.phase == f.phase
    ensures !r.state.timerPending
    ensures f.timerPending ==> r.state.completed
    ensures !f.timerPending ==> r.state == f
    ensures r.state.(phase := f.phase, completed := f.completed, timerPending := f.timerPending) == f
  {
    if !f.timerPending then Fired(f, false)
    else if !f.completed then Fired(f.(timerPending := false, completed := true, phase := Done), true)
    else Fired(f.(timerPending := false), false)
  }

  datatype Event = Render(props: Props) | NextFrame | TimerFires

  function Step(f: Flyout, e: Event): Fired {
    match e
    case Render(p) => Fired(Commit(f, p), false)
    case NextFrame => Fired(Frame(f), false)
    case TimerFires => Timer(f)
  }

  predicate ActivatingEvent(f: Flyout, e: Event) {
    e.Render? && Activates(f, e.props)
  }

  datatype Trace = Trace(state: Flyout, callbacks: nat)

  /** Run a sequence of events, counting completion callbacks. */
  function Run(f: Flyout, events: seq<Event>): Trace
    decreases |events|
  {
    if |events| == 0 then Trace(f, 0)
    else
      var r := Step(f, events[0]);
      var rest := Run(r.state, events[1..]);
      Trace(rest.state, rest.callbacks + (if r.callback then 1 else 0))
  }

  /** No event of the run is a commit that restarts the sequence. */
  predicate Quiet(f: Flyout, events: seq<Event>)
    decreases |events|
  {
    |events| == 0 || (!ActivatingEvent(f, events[0]) && Quiet(Step(f, events[0]).state, events[1..]))
  }

  /** A scheduled timer always finds the latch clear. */
  predicate Wf(f: Flyout) {
    f.timerPending ==> !f.completed
  }

  lemma StepKeepsWf(f: Flyout, e: Event)
    requires Wf(f)
    ensures Wf(Step(f, e).state)
  {
  }

  lemma MountIsWf(p: Props)
    ensures Wf(Mount(p))
  {
  }

  /**
   * Between two activations the completion callback runs at most once, and
   * not at all when no timer is pending at the start.
   */
  lemma {:induction false} AtMostOneCallbackPerActivation(f: Flyout, events: seq<Event>)
    requires Wf(f)
    requires Quiet(f, events)
    ensures Run(f, events).callbacks <= (if f.timerPending then 1 else 0)
    decreases |events|
  {
    if |events| > 0 {
      var r := Step(f, events[0]);
      StepKeepsWf(f, events[0]);
      AtMostOneCallbackPerActivation(r.state, events[1..]);
      if r.callback {
        assert !r.state.timerPending;
      } else if events[0].Render? {
        assert !r.state.timerPending || f.timerPending;
      }
    }
  }

  /**
   * Deactivation cancels: once a commit turns `active` off, no callback
   * follows until the next activation.
   */
  lemma DeactivationCancels(f: Flyout, p: Props, events: seq<Event>)
    requires Wf(f)
    requires f.props.active && !p.active
    requires Quiet(Commit(f, p), events)
    ensures Commit(f, p).phase == Idle
    ensures Run(Commit(f, p), events).callbacks == 0
  {
    StepKeepsWf(f, Render(p));
    AtMostOneCallbackPerActivation(Commit(f, p), events);
  }

  /**
   * Without a snapshot, and as long as no commit supplies card and
   * rectangle, the component never starts and never reports completion.
   */
  lemma {:induction false} NoSnapshotNoCallback(f: Flyout, events: seq<Event>)
    requires !HasSnapshot(f) && !f.timerPending
    requires forall k :: 0 <= k < |events| && events[k].Render? ==> !Supplies(events[k].props)
    ensures Run(f, events).callbacks == 0
    ensures !HasSnapshot(Run(f, events).state)
    ensures Quiet(f, events)
    decreases |events|
  {
    if |events| > 0 {
      var r := Step(f, events[0]);
      assert !HasSnapshot(r.state) && !r.state.timerPending && !r.callback;
      NoSnapshotNoCallback(r.state, events[1..]);
    }
  }

  /**
   * An activation followed by two frames is animating, and the timer then
   * reports completion exactly once: a repeated firing does nothing.
   */
  lemma ActivationCompletesOnce(f: Flyout, p: Props)
    requires Activates(f, p)
    ensures Frame(Frame(Commit(f, p))).phase == Animating
    ensures Timer(Frame(Frame(Commit(f, p)))).callback
    ensures !Timer(Timer(Frame(Frame(Commit(f, p)))).state).callback
    ensures Run(Commit(f, p), [NextFrame, NextFrame, TimerFires, TimerFires]).callbacks == 1
  {
    var g := Commit(f, p);
    var h := Frame(Frame(g));
    assert Run(Timer(Timer(h).state).state, []).callbacks == 0;
  }

  // ---------------------------------------------------------------------
  // What is drawn
  // ---------------------------------------------------------------------

  /**
   * The discrete visual state of the flying card: its vertical offset in
   * viewport-height percent, its scale in percent and its opacity.
   */
  datatype Pose = Pose(translateVh: int, scalePercent: nat, opacity: nat)

  /** At the slot: no offset, full size, opaque. */
  const OnPosition: Pose := Pose(0, 100, 1)
  /** Above the screen: offset by -150vh, shrunk to 80%, transparent. */
  const OffScreen: Pose := Pose(-150, 80, 0)

  function PoseFor(direction: Direction, animating: bool): Pose {
    match direction
    case Out => if animating then OffScreen else OnPosition
    case In => if animating then OnPosition else OffScreen
  }

  /** The inward flight is the outward flight run backwards. */
  lemma InIsReverseOfOut()
    ensures PoseFor(Out, false) == OnPosition && PoseFor(Out, true) == OffScreen
    ensures forall animating :: PoseFor(In, animating) == PoseFor(Out, !animating)
  {
  }

  datatype Visual = Visual(rect: Rect, card: Card, pose: Pose)

  /**
   * The rendered output: nothing when idle or done or when neither the
   * snapshot nor the live props provide a card and a rectangle; otherwise
   * the card at the rectangle, the snapshot taking precedence over the
   * live props, in the pose given by the live direction and the phase.
   */
  function View(f: Flyout): (v: Option<Visual>)
    ensures v.None? <==>
      f.phase == Idle || f.phase == Done
      || (f.savedCard.None? && f.props.card.None?)
      || (f.savedRect.None? && f.props.rect.None?)
    ensures v.Some? && f.savedCard.Some? ==> v.value.card == f.savedCard.value
    ensures v.Some? && f.savedRect.Some? ==> v.value.rect == f.savedRect.value
    ensures v.Some? && f.savedCard.None? ==> v.value.card == f.props.card.value
    ensures v.Some? && f.savedRect.None? ==> v.value.rect == f.props.rect.value
    ensures v.Some? ==> v.value.pose == PoseFor(f.props.direction, f.phase == Animating)
  {
    var card := if f.savedCard.Some? then f.savedCard else f.props.card;
    var rect := if f.savedRect.Some? then f.savedRect else f.props.rect;
    if rect.None? || card.None? || f.phase == Idle || f.phase == Done then None
    else Some(Visual(rect.value, card.value, PoseFor(f.props.direction, f.phase == Animating)))
  }

  /**
   * Once a sequence has started, the drawn card and rectangle are the
   * snapshot's: a later commit that does not supply both (the slot's
   * card was removed, say) does not change what is flying.
   */
  lemma SnapshotSurvivesPropChanges(f: Flyout, p: Props)
    requires HasSnapshot(f)
    requires !Supplies(p)
    requires View(Commit(f, p)).Some?
    ensures View(Commit(f, p)).value.card == f.savedCard.value
    ensures View(Commit(f, p)).value.rect == f.savedRect.value
  {
  }
}

=== FILE: text.dfy ===
/**
 * The small pieces of string handling the binder relies on: decimal
 * rendering of numbers (template literals such as `slot-${i}`), substring
 * search (`String.prototype.includes`), whitespace trimming
 * (`String.prototype.trim`) and lower-casing (`toLowerCase`).
 */
module Text {

  // ---------------------------------------------------------------------
  // Decimal rendering
  // ---------------------------------------------------------------------

  predicate IsDigit(c: char) {
    '0' <= c <= '9'
  }

  predicate AllDigits(s: string) {
    forall k :: 0 <= k < |s| ==> IsDigit(s[k])
  }

  function DigitChar(d: nat): (c: char)
    requires d < 10
    ensures IsDigit(c)
    ensures (c as int) - ('0' as int) == d
  {
    ('0' as int + d) as char
  }

  /** Decimal text of `n` without leading zeros, as `${n}` renders a non-negative integer below 1e21. */
  function NatToString(n: nat): (s: string)
    ensures 1 <= |s|
    ensures AllDigits(s)
    ensures |s| == 1 || s[0] != '0'
    decreases n
  {
    if n < 10 then [DigitChar(n)] else NatToString(n / 10) + [DigitChar(n % 10)]
  }

  /** The number a string of decimal digits denotes; the reading direction of `NatToString`. */
  function DigitsValue(s: string): nat
    requires AllDigits(s)
  {
    if |s| == 0 then 0
    else DigitsValue(s[..|s| - 1]) * 10 + ((s[|s| - 1] as int) - ('0' as int))
  }

  /** Reading back the rendered text gives the number. */
  lemma {:induction false} DigitsValueOfNatToString(n: nat)
    ensures DigitsValue(NatToString(n)) == n
    decreases n
  {
    var s := NatToString(n);
    if n >= 10 {
      DigitsValueOfNatToString(n / 10);
      assert s[..|s| - 1] == NatToString(n / 10);
    }
  }

  /** Distinct numbers render to distinct texts. */
  lemma NatToStringInjective(a: nat, b: nat)
    requires NatToString(a) == NatToString(b)
    ensures a == b
  {
    DigitsValueOfNatToString(a);
    DigitsValueOfNatToString(b);
  }

  // ---------------------------------------------------------------------
  // Substring search
  // ---------------------------------------------------------------------

  /** `t` appears in `s` starting at position `i`. */
  predicate OccursAt(s: string, t: string, i: int) {
    0 <= i && i + |t| <= |s| && s[i..i + |t|] == t
  }

  /** `s.includes(t)`: whether `t` occurs anywhere in `s`. */
  function Contains(s: string, t: string): (b: bool)
    ensures b <==> exists i :: OccursAt(s, t, i)
    decreases |s|
  {
    if |s| < |t| then false
    else if s[..|t|] == t then assert OccursAt(s, t, 0); true
    else
      ShiftOccurrence(s, t);
      Contains(s[1..], t)
  }

  /** Occurrences in `s[1..]` are exactly the occurrences in `s` past position 0. */
  lemma ShiftOccurrence(s: string, t: string)
    requires 1 <= |s|
    requires !OccursAt(s, t, 0)
    ensures (exists i :: OccursAt(s, t, i)) <==> (exists j :: OccursAt(s[1..], t, j))
  {
    if i :| OccursAt(s, t, i) {
      assert i != 0;
      assert s[1..][i - 1..i - 1 + |t|] == s[i..i + |t|];
      assert OccursAt(s[1..], t, i - 1);
    }
    if j :| OccursAt(s[1..], t, j) {
      assert s[1..][j..j + |t|] == s[j + 1..j + 1 + |t|];
      assert OccursAt(s, t, j + 1);
    }
  }

  // ---------------------------------------------------------------------
  // Trimming
  // ---------------------------------------------------------------------

  /**
   * The characters `String.prototype.trim` removes: the ECMAScript
   * WhiteSpace and LineTerminator code points.
   */
  predicate IsWhitespace(c: char) {
    || c == '\t' || c == '\n' || c == '\U{000B}' || c == '\U{000C}' || c == '\r'
    || c == ' ' || c == '\U{00A0}' || c == '\U{1680}'
    || ('\U{2000}' <= c <= '\U{200A}')
    || c == '\U{2028}' || c == '\U{2029}' || c == '\U{202F}' || c == '\U{205F}'
    || c == '\U{3000}' || c == '\U{FEFF}'
  }

  predicate IsBlank(s: string) {
    forall i :: 0 <= i < |s| ==> IsWhitespace(s[i])
  }

  /** `s` with its leading whitespace removed. */
  function TrimStart(s: string): (r: string)
    ensures |r| <= |s| && r == s[|s| - |r|..]
    ensures IsBlank(s[..|s| - |r|])
    ensures r == [] || !IsWhitespace(r[0])
    decreases |s|
  {
    if |s| > 0 && IsWhitespace(s[0]) then TrimStart(s[1..]) else s
  }

  /** `s` with its trailing whitespace removed. */
  function TrimEnd(s: string): (r: string)
    ensures |r| <= |s| && r == s[..|r|]
    ensures IsBlank(s[|r|..])
    ensures r == [] || !IsWhitespace(r[|r| - 1])
    decreases |s|
  {
    if |s| > 0 && IsWhitespace(s[|s| - 1]) then TrimEnd(s[..|s| - 1]) else s
  }

  /**
   * `s.trim()`: the infix of `s` left once the all-whitespace text on both
   * sides is dropped, neither starting nor ending with whitespace. It is
   * empty exactly when `s` is all whitespace.
   */
  function Trim(s: string): (r: string)
    ensures r == [] <==> IsBlank(s)
    ensures r == [] || (!IsWhitespace(r[0]) && !IsWhitespace(r[|r| - 1]))
    ensures exists a :: OccursAt(s, r, a) && IsBlank(s[..a]) && IsBlank(s[a + |r|..])
  {
    var front := TrimStart(s);
    var r := TrimEnd(front);
    TrimShape(s, front, r);
    r
  }

  /**
   * What the two halves of `Trim` guarantee, combined: a blank prefix cut
   * off `s` leaves `front`, a blank suffix cut off `front` leaves `r`.
   */
  lemma TrimShape(s: string, front: string, r: string)
    requires |front| <= |s| && front == s[|s| - |front|..] && IsBlank(s[..|s| - |front|])
    requires front == [] || !IsWhitespace(front[0])
    requires |r| <= |front| && r == front[..|r|] && IsBlank(front[|r|..])
    requires r == [] || !IsWhitespace(r[|r| - 1])
    ensures r == [] <==> IsBlank(s)
    ensures r == [] || (!IsWhitespace(r[0]) && !IsWhitespace(r[|r| - 1]))
    ensures exists a :: OccursAt(s, r, a) && IsBlank(s[..a]) && IsBlank(s[a + |r|..])
  {
    var a := |s| - |front|;
    assert s[a..a + |r|] == r;
    assert s[a + |r|..] == front[|r|..];
    assert OccursAt(s, r, a);
    if r == [] {
      assert front[|r|..] == front;
      BlankConcat(s[..a], front);
      assert s[..a] + front == s;
    } else {
      assert r[0] == front[0] == s[a];
    }
  }

  lemma BlankConcat(u: string, v: string)
    requires IsBlank(u) && IsBlank(v)
    ensures IsBlank(u + v)
  {
    forall i | 0 <= i < |u + v| ensures IsWhitespace((u + v)[i]) {
      if i < |u| { assert (u + v)[i] == u[i]; } else { assert (u + v)[i] == v[i - |u|]; }
    }
  }

  /** Trimming an already trimmed string changes nothing. */
  lemma TrimIdempotent(s: string)
    ensures Trim(Trim(s)) == Trim(s)
  {
    var r := Trim(s);
    TrimOfUnpadded(r);
  }

  /** A string that neither starts nor ends with whitespace is its own trim. */
  lemma TrimOfUnpadded(s: string)
    requires s == [] || (!IsWhitespace(s[0]) && !IsWhitespace(s[|s| - 1]))
    ensures Trim(s) == s
  {
  }

  // ---------------------------------------------------------------------
  // Lower-casing
  // ---------------------------------------------------------------------

  predicate IsUpperAscii(c: char) {
    'A' <= c <= 'Z'
  }

  function LowerChar(c: char): (d: char)
    ensures !IsUpperAscii(d)
    ensures IsUpperAscii(c) ==> (d as int) == (c as int) + 32
    ensures !IsUpperAscii(c) ==> d == c
  {
    if IsUpperAscii(c) then (c as int + 32) as char else c
  }

  /** `s.toLowerCase()` restricted to the ASCII letters. */
  function ToLower(s: string): (r: string)
    ensures |r| == |s|
    ensures forall i :: 0 <= i < |r| ==> r[i] == LowerChar(s[i])
  {
    if |s| == 0 then [] else [LowerChar(s[0])] + ToLower(s[1..])
  }

  /** Lower-casing twice is lower-casing once. */
  lemma ToLowerIdempotent(s: string)
    ensures ToLower(ToLower(s)) == ToLower(s)
  {
  }
}

=== FILE: types.dfy ===
/**
 * The records the binder stores and passes between its components:
 * cards, slots, the bounding rectangle of a rendered slot and the
 * direction of a fly-out.
 */
module Types {

  /** An optional value; `None` stands for JavaScript's `null` / `undefined`. */
  datatype Option<+T> = None | Some(value: T)

  /**
   * A card held by a slot. `rarity` and `setName` are optional fields; a card
   * built from a catalog result stores whatever lowercased rarity text the
   * catalog returned, so `rarity` is free text rather than the five-value
   * enumeration the type annotation names.
   */
  datatype Card = Card(
    id: string,
    name: string,
    imageUrl: string,
    rarity: Option<string>,
    setName: Option<string>)

  /** A binder slot: a stable identifier and at most one card. */
  datatype Slot = Slot(id: string, card: Option<Card>)

  /** The on-screen bounding box of a rendered slot (coordinates abstracted to integers). */
  datatype Rect = Rect(left: int, top: int, width: int, height: int)

  /** Which way a fly-out runs: out of the grid into the detail view, or back in. */
  datatype Direction = Out | In
}
